=== FILE: README.md ===
# gmx-stats API core, modelled in Dafny

The stats service of the GMX deployment on the Meter testnet (chain 83) answers
a set of read-only `/api/*` routes. Each route reads the chain (vault token
info, fees, price feeds) or the stats subgraph (volumes, actions), reshapes the
answer, and replies in plain text. This project models what the routes do with
those answers, and proves properties of that model:

- **Address registry** (`Registry`): the `addresses` table of chain 83 and
  `getAddress(chainId, key)`, including the operator-precedence slip in its
  unknown-chain guard. Also `getProvider` and its provider table.
- **Vault token decode** (`VaultDecode`): `getInfoTokens` cuts the reader's
  flat `getVaultTokenInfo` result into stride-10 records keyed by token
  address. `/api/tokens` re-emits nine of the ten fields as decimal text, in
  catalog order.
- **Fee aggregation** (`Fees`): `/api/fees_summary` sums
  `fee * minPrice div 10^decimals` over the catalog with unbounded integers.
  `expandDecimals` is also here. The loop is also modelled for answers of any
  length, since the service checks neither the reader's nor the fee list's.
- **Time buckets** (`Buckets`): the hourly and daily rounding of `now`.
- **Subgraph queries** (`Subgraph`): the query template of
  `getVolumes`/`getActions`, the where-clauses, and the reshaping of the answer
  rows into `{id, data}` envelopes. `getActions` is modelled as written: it
  reads its data fields from `data.volumes`.
- **Validation and errors** (`Validation`, `ApiErrors`, `Failures`):
  - the ordered parameter checks of `/api/candles/:symbol` and
    `/api/earn/:account`;
  - the failures the code raises, with their messages;
  - the `/api` error handler's status and body rule.
- **Routes** (`Routes`): each handler as one function of its parameters and of
  its remote reads.

Supporting modules:

- `Wrappers`: `Option`, `Result`.
- `Text`: decimal text of integers, ASCII lower-casing, `join`, substring
  containment.
- `Arith`: division facts.
- `Catalog`: the two-token catalog of the Meter testnet.

Inputs that come from outside the modelled code are parameters:

- the reader's flat answer (`seq<nat>`) and the fee amounts;
- the feed readings, as a function of the feed address;
- the subgraph's `data` object (a map from field name to rows);
- `Date.now()`, in milliseconds;
- the results of `getPricesLimit`, `getLastUpdatedTimestamp` and
  `queryEarnData`;
- whether the process runs in production.

`Number(...)` of a query parameter is the caller's `JsNumber` value
(`Failures.NumberOfParam` gives it for digit strings up to 2^53).

The model follows the code where it differs from the documented intent:

- The unknown-chain guard of `getAddress` never fires (see Findings).
- `/api/tokens`, `/api/fees_summary` and `/api/prices` always fail with the
  shipped address table. It has no `Reader`, `Vault` or witnet-feed entries.
- `AVALANCHE` is not exported by the address module, so the candle source set
  is `{83, undefined}`, and only 83 is ever accepted.
- `getActions` cannot succeed on a non-empty answer to its own query (see Findings).

Where a finding corrects the code, the routes use the corrected definition:

- address lookups go through Registry.GetAddressChecked;
- `/api/actions` reshapes with Subgraph.GetActionsFixed.

The as-written definitions stay in the model, with their own properties.

## Model

| member | source | states |
|---|---|---|
| Registry.GetAddress | src/addresses.js:14-22 | As written, over a table keyed by chain ids: a registered chain and present key give exactly the stored address. An absent key fails with "Unknown address key". An unregistered chain fails with the TypeError of `key in undefined`, never with "Unknown chain" |
| Registry.GuardNeverFires | src/addresses.js:15-17 | `(!chainId) in addresses` asks for the key "true" or "false", which no chain-keyed table holds |
| Registry.ChainKeyIsNotBoolKey | src/addresses.js:15 | The property key of a numeric chain id is never "true" or "false" |
| Registry.ShippedAddressesChainKeyed | src/addresses.js:1-4 | The shipped table is keyed by the text of chain ids, and METERTEST's key is "83" |
| Registry.GetAddressChecked | src/addresses.js:14-22 | With the intended guard: success exactly when chain and key are registered, then the stored address. "Unknown chain <id>" for an unregistered chain, "Unknown address key" for an absent key |
| Registry.LookupsAgreeOnRegisteredChains | src/addresses.js:14-22 | On every registered chain the as-written and the corrected lookup return the same result |
| Registry.UnknownChainIsTypeError | src/addresses.js:15-18 | Chain 1 with the shipped table: the as-written lookup throws the `in`-on-undefined TypeError; the corrected one says "Unknown chain 1" |
| Registry.UnknownChainNeverResolves | src/addresses.js:15-21 | No call for an unregistered chain returns an address, under either lookup |
| Registry.ShippedMeterTestKeys | src/addresses.js:3-12 | Chain 83 holds exactly GMX, MTR, MTRG, RewardReader, GLP, GlpManager; Vault, Reader, IWitnetFeed_MTR and IWitnetFeed_MTRG fail with "Unknown address key" |
| Registry.ShippedTokenAddressesMatchCatalog | src/addresses.js:6-7 | The registry's MTR and MTRG addresses are the catalog tokens' addresses |
| Registry.GetProvider | src/routes.js:54-59 | Success exactly when the chain has a provider, then that provider; otherwise "Unknown chain <id>" |
| Routes.Provider | src/routes.js:123 | `getProvider(METERTEST)`: the provider lookup every contract route makes first, so a chain without a provider fails before any address lookup (Routes.ShippedTokensRouteFails and Routes.ShippedFeesSummaryFails rely on it) |
| Registry.ShippedProviderOnlyMeterTest | src/routes.js:50-52 | With the shipped providers exactly chain 83 resolves, to the rpctest.meter.io provider |
| Catalog.Addresses | src/routes.js:133 | The address list sent to the reader has one entry per catalog token, in catalog order |
| Catalog.MeterTestCatalogDistinct | src/tokens.js:1-41 | The two catalog tokens have distinct addresses |
| VaultDecode.Encode | src/routes.js:136 | A record stands for exactly ten numbers |
| VaultDecode.FieldsAtEncode | src/routes.js:141-150 | Record i consists of exactly `flat[10i..10i+10]`, field by field in reader order |
| VaultDecode.FieldsAt | src/routes.js:141-150 | The ten vault fields of token i, read from slots `10i` to `10i+9` in reader order; VaultDecode.FieldsAtEncode and VaultDecode.DecodeEncode show it inverts Encode |
| VaultDecode.DecodeEncode | src/routes.js:141-150 | Decoding the ten numbers of a record gives the record back |
| VaultDecode.DecodeAll | src/routes.js:138-152 | One record per token, record i taken from slot i |
| VaultDecode.Flatten | src/routes.js:136-152 | n records stand for 10n numbers |
| VaultDecode.FlattenDecodeAll | src/routes.js:136-152 | Decoding loses nothing: the records of n tokens re-flatten to `flat[..10n]` |
| VaultDecode.DecodeAllFlatten | src/routes.js:136-152 | Decoding the flattening of records gives the records back |
| VaultDecode.FlattenAt | src/routes.js:136-152 | Slot i of a flattening holds exactly record i |
| VaultDecode.EncodeInjective | src/routes.js:141-150 | Different records stand for different ten-number slots |
| VaultDecode.InfoTokensUpToKeys | src/routes.js:138-153 | After k iterations the map's keys are the first k addresses, and each entry sits under its own token's address |
| VaultDecode.InfoTokensUpTo | src/routes.js:138-153 | The map `getInfoTokens` holds after k iterations; VaultDecode.InfoTokensUpToKeys gives its keys and VaultDecode.InfoTokensUpToLast the entry under each key |
| VaultDecode.InfoTokensUpToAt | src/routes.js:138-153 | With distinct addresses, token i's entry is token i, unchanged, with its own ten slots |
| VaultDecode.LastWith | src/routes.js:138-153 | The index found is the last of the first k tokens with the address; none is found exactly when no such token exists |
| VaultDecode.InfoTokensUpToLast | src/routes.js:138-153 | Without distinctness, an address has an entry exactly when some token has it, and the entry is the last such token with its own slots: later writes win |
| VaultDecode.InfoTokens | src/routes.js:121-156 | The keys are exactly the catalog addresses; every catalog token has an entry, stored under its own address |
| VaultDecode.InfoTokensAt | src/routes.js:138-153 | With distinct addresses, the entry for token i's address is token i's unchanged catalog entry with `flat[10i]`…`flat[10i+9]` |
| VaultDecode.PresentRoundTrip | src/routes.js:172-182 | Each emitted decimal string parses back to the vault field it came from |
| VaultDecode.Present | src/routes.js:172-182 | The nine `toString()` fields of a token; VaultDecode.PresentRoundTrip reads each one back, and VaultDecode.PresentIgnoresUsdg shows usdgAmount is not among them |
| VaultDecode.TokensPayload | src/routes.js:168-186 | One entry per catalog token, in catalog order, with `id` the token's address |
| VaultDecode.TokensPayloadFields | src/routes.js:168-185 | Entry i's nine strings parse back to `flat[10i]`, `flat[10i+1]`, `flat[10i+3]` … `flat[10i+9]` |
| VaultDecode.PresentIgnoresUsdg | src/routes.js:172-182 | Records that agree outside usdgAmount are emitted as the same strings |
| VaultDecode.SameSlotOutsideUsdg | src/routes.js:141-150 | Reads that agree outside the usdgAmount slots decode to records that agree outside usdgAmount |
| VaultDecode.TokensPayloadIgnoresUsdg | src/routes.js:171-182 | Two reads that differ only in the usdgAmount slots give the same payload: usdgAmount is not emitted |
| Fees.ExpandDecimalsCompose | src/routes.js:24-26 | Scaling by 10^a then by 10^b is scaling by 10^(a+b) |
| Fees.ExpandDecimals | src/routes.js:24-26 | `n` times 10^decimals; Fees.ExpandDecimalsCompose and Fees.ExpandDecimalsOne state its scaling laws |
| Fees.FeeInUsd | src/routes.js:207-209 | `fee * minPrice` divided by `expandDecimals(1, decimals)` with the remainder dropped; Fees.FeeInUsdTruncates pins it as the largest r with r * 10^decimals ≤ fee * minPrice |
| Fees.ExpandDecimalsOne | src/routes.js:24-26 | `expandDecimals(1, d)` is 10^d, and the 18-decimal scale is 10^18 |
| Fees.FeeInUsdTruncates | src/routes.js:207-209 | A token's USD fee is the largest r with r·10^decimals ≤ fee·minPrice: division truncates |
| Fees.ComputeFeesUsd | src/routes.js:203-211 | On inputs where the loop completes, it computes the sum of the per-token fee terms (Fees.FeesUsdUpTo covers every input) |
| Fees.EmptyCatalogHasNoFees | src/routes.js:203-211 | The total for an empty catalog is 0 |
| Fees.AppendTokenAddsItsFee | src/routes.js:203-211 | Appending a token adds exactly its own fee term, so the total never decreases |
| Fees.TotalFeesFromSnapshot | src/routes.js:198-211 | With distinct addresses, summing via the address-keyed snapshot equals the positional sum of `fee_i·flat[10i+5] div 10^decimals_i` |
| Fees.MinPriceOfToken | src/routes.js:146 | With ten values per token, every token's `minPrice` is present and is the snapshot's |
| Fees.MinPriceRead | src/routes.js:208 | The `minPrice` the fees loop finds under a token's address: slot 5 (stored by `getInfoTokens`, src/routes.js:146) of the last token with that address, absent past the end of the answer; Fees.MinPriceOfToken ties it to the snapshot on full answers and Routes.FeesSummaryToleratesShortAnswer shows only that slot matters |
| Fees.ReadTerms | src/routes.js:203-209 | One term per token, in catalog order: its fee amount priced with the `minPrice` read for its address, truncated by its decimals |
| Fees.FeesStep | src/routes.js:204-211 | One more iteration adds the new token's fee term to the total |
| Fees.FeesUsdUpTo | src/routes.js:203-211 | With answers of any length, the loop succeeds exactly when every token has a fee amount and a `minPrice`. With a full reader answer the only failure is `mul` on `undefined`; with enough fee amounts it is the BigNumber error. On every success the value is the sum of Fees.ReadTerms, the per-token terms priced with the `minPrice` read for each token. With a full answer it is also the snapshot total |
| Buckets.NowSeconds | src/routes.js:254 | `Math.floor(now/1000)`: the whole seconds s with s·1000 ≤ now < (s+1)·1000 |
| Buckets.AlignDown | src/routes.js:255 | `t - t % period` is a multiple of the period, at most t, and within one period of t |
| Buckets.AlignDownUnique | src/routes.js:255 | It is the only multiple of the period in (t − period, t] |
| Buckets.AlignDownIdempotent | src/routes.js:255 | Aligning twice is aligning once |
| Buckets.AlignDownMonotone | src/routes.js:255 | A later time never falls into an earlier bucket |
| Buckets.BucketBounds | src/routes.js:254-265 | The hourly and daily buckets are multiples of 3600 and 86400, are ≤ now, lie within one period of now, and are idempotent |
| Buckets.HourlyBucket | src/routes.js:254-255 | The start of the hour containing now; Buckets.BucketBounds states its alignment and range |
| Buckets.DailyBucket | src/routes.js:264-265 | The start of the day containing now; Buckets.BucketBounds states its alignment and range and Buckets.DailyBucketIsHourly relates it to the hourly bucket |
| Buckets.DailyBucketIsHourly | src/routes.js:254-265 | Every daily bucket is an hourly bucket, and never later than the hourly bucket of the same now |
| Subgraph.WhereRoundTrip | src/routes.js:221-228 | The where-clause is spliced into the query verbatim and can be read back out of it |
| Subgraph.BuildQuery | src/routes.js:221-228 | The query template with the where-clause spliced in; Subgraph.WhereRoundTrip reads the clause back and Subgraph.BuildQueryInjective shows distinct clauses give distinct queries |
| Subgraph.BuildQueryInjective | src/routes.js:221-228 | Different where-clauses give different queries |
| Subgraph.QueryRequestsWindow | src/routes.js:221-228 | Every query names its entity and asks for `first: 600`, `orderBy: timestamp`, `orderDirection: desc`, selecting the given props |
| Subgraph.VolumePropsSelectEveryField | src/routes.js:220-250 | Every field the volume envelopes copy is selected by the volumes query |
| Subgraph.ReshapeVolumes | src/routes.js:238-250 | One envelope per row, same length and order |
| Subgraph.ReshapeVolume | src/routes.js:239-249 | One row's envelope: `id` plus the five data fields; Subgraph.ReshapeVolumeRoundTrip shows each is copied unchanged and nothing else is added |
| Subgraph.ReshapeVolumeRoundTrip | src/routes.js:239-249 | An envelope keeps each of the six selected fields of its row unchanged, and nothing else |
| Subgraph.ReshapeVolumesAppend | src/routes.js:238-250 | Reshaping commutes with concatenation: rows are neither dropped, duplicated nor reordered |
| Subgraph.GetVolumes | src/routes.js:219-251 | The query carries the where-clause. A missing `volumes` fails at `.length`. Otherwise same length and order, with id, token, timestamp, group, volume, action copied unchanged |
| Subgraph.TimestampWhereRoundTrip | src/routes.js:256 | The bucket can be parsed back from `timestamp: <bucket>` |
| Subgraph.TimestampWhere | src/routes.js:256 | `timestamp: ` followed by the bucket's decimal text; Subgraph.TimestampWhereRoundTrip parses the bucket back |
| Subgraph.ActionPropsSelectEveryField | src/routes.js:321-350 | Every field the action envelopes fill is selected by the actions query |
| Subgraph.ActionsFrom | src/routes.js:340-352 | As written: success exactly when there are no actions or `volumes` has at least as many rows. A missing `volumes` fails reading index 0, a short one reading `params`. Ids come from `actions[i]`, data from `volumes[i]` |
| Subgraph.GetActions | src/routes.js:320-354 | The query carries the where-clause; a missing `actions` fails at `.length`; otherwise the loop above from index 0 |
| Subgraph.ActionsAnswerOnlyEmptySucceeds | src/routes.js:320-354 | On an answer holding only `actions`, the lookup succeeds exactly when there are none, returning [] |
| Subgraph.ActionsCrossWiringFails | src/routes.js:340-349 | One action in the answer, and the as-written loop fails reading index 0 of the missing `volumes` |
| Subgraph.GetActionsFixed | src/routes.js:340-352 | Reading every field from `actions[i]`: success exactly when `actions` is present; one envelope per action row, fields copied |
| Subgraph.ReshapeActions | src/routes.js:340-352 | With the corrected reading: one envelope per action row, in order, with `id` and data taken from that row itself |
| Subgraph.FixedActionsServeConformingAnswers | src/routes.js:340-352 | On a non-empty conforming answer the fixed loop returns every action where the as-written one fails |
| Subgraph.ActionsWhere | src/routes.js:357-361 | The filter is empty exactly when the account is absent or empty; otherwise `account: ` + the lower-cased account |
| Subgraph.ActionsWhereCaseInsensitive | src/routes.js:357-361 | The filter does not depend on the account's case, and the lower-cased account can be read back from it |
| Validation.CheckCandles | src/routes.js:381-408 | Succeeds exactly when the lower-cased period is non-empty and valid, the symbol is one of the six, and the source is valid. The first failing check, in that order, gives 400 with its own message. On success the request is (5000, 83, symbol, lower-cased period) |
| Validation.SourceMessageText | src/routes.js:404 | The source rejection message ends "Valid options are 83, undefined" |
| Failures.NumberText | src/routes.js:404 | The text `${preferableChainId}` renders: "NaN", the decimal text of an integer, or the engine's text of a non-integer; Validation.MissingSourceRejected pins the "NaN" case |
| Validation.OnlyMeterTestSource | src/routes.js:398-400 | A number is accepted as a source exactly when it is 83 |
| Validation.MissingSourceRejected | src/routes.js:398-407 | A missing preferableChainId is NaN and is rejected as "Invalid preferableChainId NaN. …" |
| Validation.EmptyPeriodRejected | src/routes.js:381-390 | An absent or empty period is rejected, even when "" is a valid period |
| Validation.PeriodCaseInsensitive | src/routes.js:381-396 | The period check ignores case; the symbol check does not |
| Validation.PeriodMessageListsEveryPeriod | src/routes.js:386 | The period rejection lists every valid period |
| Validation.CandlesRejectionReply | src/routes.js:381-408 | Every candles rejection reaches the client as 400, in production with its message as the body |
| Validation.ChainName | src/routes.js:87 | An absent or empty chain parameter means "arbitrum"; any other value is kept |
| Validation.CheckEarnChain | src/routes.js:87-94 | Succeeds exactly for a valid chain name, returning it; otherwise 400 "Valid chains are: …" |
| Validation.EarnChainExamples | src/routes.js:87-94 | Absent and empty default to arbitrum; names are case-sensitive; the message is "Valid chains are: arbitrum,avalanche" |
| Validation.EarnAcceptsExactlyValidNames | src/routes.js:87-94 | The accepted parameters are exactly: absent, "", "arbitrum", "avalanche" |
| ApiErrors.StatusOf | src/routes.js:474 | The status is `Number(err.code)` when truthy, otherwise 500; it is never 0 or NaN |
| Failures.Truthy | src/routes.js:474 | JavaScript truthiness of a number, the test `||` applies: only NaN and 0 are falsy; ApiErrors.StatusOf and ApiErrors.CodelessErrorIsServerError rely on it |
| Failures.CodeToNumber | src/routes.js:474 | `Number(err.code)`: NaN for an absent code, the number itself, or what `Number` makes of a string; ApiErrors.StringCodeHidesMessage shows the string "400" still gives status 400 |
| ApiErrors.HandleApiError | src/routes.js:472-485 | Plain text with status StatusOf. In production the body is the message exactly when the code is the number 400, otherwise empty. Outside production it is the stack |
| ApiErrors.ClientErrorReply | src/routes.js:472-485 | An HTTP 400 error reaches the client as 400, in production with its message |
| ApiErrors.StringCodeHidesMessage | src/routes.js:474-479 | A string code "400" gives status 400 but, by strict equality, an empty production body |
| ApiErrors.CodelessErrorIsServerError | src/routes.js:474-479 | An absent, zero or NaN code gives 500 with an empty production body |
| ApiErrors.FailureHiddenUnlessClientError | src/routes.js:476-479 | In production every failure other than a 400 has an empty body |
| Failures.ToErrorValue | src/addresses.js:15-21 | Only an HTTP or passed-on error with code 400 yields code 400; an HTTP error keeps its message |
| Failures.NumberOfParam | src/routes.js:398 | `Number(undefined)` is NaN; a digit string whose value is at most 2^53 is that value; no present parameter is NaN |
| Failures.NumberOfParamReadsDecimal | src/routes.js:398 | The decimal text of n reads back as n exactly when n ≤ 2^53, where a double still holds every integer |
| Text.ParseNatToString | src/routes.js:215 | The decimal text of a non-negative integer parses back to it |
| Text.NatToString | src/routes.js:215 | The `toString()` of a non-negative BigNumber: non-empty decimal digits with no leading zero except for 0; Text.ParseNatToString reads the value back |
| Text.IntToString | src/routes.js:299-300 | The `toString()` of a signed price: a leading '-' exactly for negatives, digits otherwise; Text.ParseIntToString reads the value back |
| Text.ParseIntToString | src/routes.js:299-300 | The decimal text of an integer, with its sign, parses back to it |
| Text.ToLower | src/routes.js:357 | Same length; each upper-case ASCII letter becomes its lower-case letter (code + 32); every other character is unchanged, so no upper-case ASCII letter is left |
| Text.ToLowerIdempotent | src/routes.js:381 | Lower-casing twice is lower-casing once |
| Text.JoinContainsEach | src/routes.js:386 | Joining a list puts every item into the result |
| Routes.Lookup | src/addresses.js:18-21 | A chain-83 address lookup succeeds exactly when the key is registered for chain 83 |
| Routes.InfoTokensCall | src/routes.js:121-135 | The reader call, or the first failing lookup (provider, Reader, Vault, MTR). It passes the Vault and MTR addresses, 10^18 and the catalog addresses in order |
| Routes.TokensRoute | src/routes.js:158-188 | Succeeds exactly when the lookups do and the answer has ten values per token. The first failing lookup's error; a short answer fails at `toString`. On success, one entry per token with its address as id |
| Routes.TokensRouteFields | src/routes.js:168-185 | On success entry i's nine strings parse back to token i's slots 0, 1, 3 … 9 |
| Routes.ShippedTokensRouteFails | src/routes.js:158-166 | With the shipped table `/api/tokens` fails with "Unknown address key Reader" |
| Routes.FeesSummaryRoute | src/routes.js:190-216 | Succeeds exactly when the lookups do, there is a fee amount per token and every token's `minPrice` was read. Fails like the lookups, at `mul` on a short fee list, or in the BigNumber multiplication. Otherwise `lastUpdatedtotalFeesAt` is now in whole seconds and `totalFees` is the decimal text of the summed fees, for answers of any length (Fees.ReadTerms) |
| Routes.FeesSummaryTotal | src/routes.js:203-215 | With distinct addresses the reported total parses to the positional sum of the fee terms |
| Routes.FeesSummaryToleratesShortAnswer | src/routes.js:138-153 | With one token, the route succeeds exactly when the reader's answer has at least six values: it only reads `minPrice` |
| Routes.ShippedFeesSummaryFails | src/routes.js:190-198 | With the shipped table `/api/fees_summary` fails with "Unknown address key Reader" |
| Routes.PriceScaleIsPow10 | src/routes.js:294-295 | The factor 1e12 is 10^12 |
| Routes.PriceText | src/routes.js:294-300 | A feed reading times 1e12, as decimal text; Routes.PriceTextRoundTrip divides it back to the reading |
| Routes.PriceTextRoundTrip | src/routes.js:294-301 | A published price parses to a multiple of 10^12 whose quotient is the feed reading |
| Routes.PricesRoute | src/routes.js:281-302 | Succeeds exactly when provider and the four lookups do. The keys are exactly the MTR and MTRG addresses; MTRG's value is its feed's scaled reading, and so is MTR's when the addresses differ |
| Routes.ShippedPricesFail | src/routes.js:281-287 | With the shipped table `/api/prices` fails with "Unknown address key IWitnetFeed_MTR" |
| Routes.HourlyVolumeRoute | src/routes.js:253-261 | The query's filter is exactly `timestamp: b`, b in plain decimal digits, with b the start of the hour containing now; success exactly when `volumes` is present, and the reply is Subgraph.ReshapeVolumes of those rows |
| Routes.DailyVolumeRoute | src/routes.js:263-271 | The query's filter is exactly `timestamp: b`, b in plain decimal digits, with b the start of the day containing now; success exactly when `volumes` is present, and the reply is Subgraph.ReshapeVolumes of those rows |
| Routes.TotalVolumeRoute | src/routes.js:273-279 | The query's filter is empty; success exactly when `volumes` is present, and the reply is Subgraph.ReshapeVolumes of those rows |
| Routes.DailyFilterIsHourBoundary | src/routes.js:253-271 | The daily filter's timestamp is an hour boundary no later than the hourly filter's |
| Routes.ActionsRoute | src/routes.js:356-366 | With the corrected reshaping: the query's filter is the account filter; success exactly when `actions` is present (else it fails at `.length`), and the reply is Subgraph.ReshapeActions of the action rows |
| Routes.ActionsRouteExtendsAsWritten | src/routes.js:320-366 | With no actions, the route and the as-written handler both reply []. On a non-empty answer holding only `actions`, the route succeeds where the as-written handler fails |
| Routes.CandlesRoute | src/routes.js:380-428 | Succeeds exactly when the checks pass and `getPricesLimit` returns. A rejection is a 400 reply. On success the header is `Cache-Control: max-age=60` and the body holds the prices for (5000, 83, symbol, lower-cased period), that period and updatedAt |
| Routes.CandlesPricesErrorPassesThrough | src/routes.js:409-420 | An error thrown by `getPricesLimit` goes to the error handler as is |
| Routes.EarnRoute | src/routes.js:86-101 | Succeeds exactly when the chain is valid and `queryEarnData` returns, with its data. A bad chain is 400 with the chain message; a failed query is 500 with an empty production body |

## Left out

- The `gmx_supply` route and `formatUnits` (src/routes.js:105-115): a single contract read rendered by an ethers formatter that is not part of this model.
- Server-side rendering and the HTML page (src/routes.js:437-469), and the asset-tag helpers (src/routes.js:61-79): presentation.
- Apollo and ethers client, provider and contract construction, and logging: network plumbing. Their answers are parameters.
- src/graph.js: not part of this model.
- `getPricesLimit`, `getLastUpdatedTimestamp`, `VALID_PERIODS` (prices.js), `queryEarnData` (dataProvider.js) and `createHttpError` (utils.js) are not part of this model. They are parameters. A `createHttpError(status, message)` error is taken to carry `status` as its numeric `code` and `message` as its message.
- The stub routes `position_stats`, `orders_indices` and `ui_version` (src/routes.js:116-119, 304-317, 368-378): constant replies.
- Asynchrony: each handler is one sequential function. A failure in the handlers without `next` (tokens, fees, volumes, actions, prices) is a rejected promise in Express 4. The model returns that failure and does not model the reply the client then sees.
- Failures.NumberOfParam: models `Number()` only for an absent parameter and for decimal-digit strings whose value is at most 2^53. A larger digit string, which `Number` rounds to a nearby double ("9007199254740993" becomes 9007199254740992), gives None. So does other text (hex such as "0x53", signs, blanks, exponents). The routes take the resulting number as a parameter.
- Failures.NumberText: renders an integer in plain decimal. A template literal writes integers of 10^21 and above in exponent form. `Integral` admits integers that no double holds; callers are expected to pass numbers a double can represent.
- JavaScript's prototype chain: `in` and property reads see only the table's own keys. `getAddress(83, "toString")`, which returns an inherited function, is not modelled.
- Text.ToLower: lower-cases ASCII letters only, not the full Unicode mapping of `toLowerCase`.
- ApiErrors.HandleApiError: the stack trace is kept symbolic (`StackOf(err)`); its engine-generated text is not produced.
- ApiErrors.HandleApiError: the reply's status is `Number(err.code) || 500` as computed, even when the HTTP server would not send it as is (say code 1, 4.5 or 404.5 on an error passed on by `getPricesLimit`). When `res.send` (src/routes.js:484) writes the head, Node truncates the status to its integer part, so 404.5 goes out as 404. It refuses a status whose integer part lies outside 100–999, such as 1 or 4.5, and then the reply is never sent. The truncation and the refusal belong to the HTTP server, which is not part of this model.
- VaultDecode.InfoTokens: requires ten values per token. The service does not check the length, and a short read in `getInfoTokens` leaves fields `undefined`. Routes.TokensRoute models the failure this causes in `/api/tokens`. Routes.FeesSummaryRoute does not go through it: it reads each `minPrice` with Fees.MinPriceRead, which allows any length.
- Failures.ToErrorValue: the error the BigNumber library raises for an `undefined` operand is reduced to a string code "INVALID_ARGUMENT" and a short message. The library is not part of this model.
- Routes.PricesRoute: the reply object's key order is not modelled (a map has none).
- Vault, fee and price values are unbounded integers. The on-chain uint256/int256 widths are not enforced, because ethers `BigNumber` arithmetic does not wrap.
- Validation.CheckCandles: query parameters are single strings or absent (`Option<string>`). Express's default query parser also yields an array for a repeated parameter (`?period=1h&period=4h`) and an object for bracket syntax. For those, `req.query.period?.toLowerCase()` (src/routes.js:381) throws a TypeError instead of replying 400. Validation.CandlesRejectionReply likewise covers string-valued parameters only.
- Validation.ChainName: an array-valued `chain` (src/routes.js:87) is truthy and reaches the Set lookup, where it is never a member, so the reply is the 400. The model takes only strings.
- Subgraph.ActionsWhere: an array- or object-valued `account` makes `req.query.account?.toLowerCase()` (src/routes.js:357, 369) throw a TypeError; the model takes only strings.
- Lookups never modify the address table. This holds by construction, because tables are immutable values, so no member states it.

## Findings

| source | as written | input that shows it | evidently intended | confidence | as-written member | corrected member |
|---|---|---|---|---|---|---|
| src/addresses.js:15 | `!(chainId) in addresses` parses as `(!chainId) in addresses`, which tests for the key "true"/"false", so the guard never fires | `getAddress(1, "GMX")` throws "Cannot use 'in' operator to search for 'GMX' in undefined" instead of "Unknown chain 1" | `!(chainId in addresses)`: an unregistered chain fails with "Unknown chain <id>" | not executed | Registry.UnknownChainIsTypeError | Registry.GetAddressChecked |
| src/routes.js:344-349 | `getActions` reads every data field from `data.volumes[i]`, but the actions query selects only `actions` | an answer `{actions: [{id: "a1"}]}` fails reading index 0 of the missing `volumes` | read the fields from `data.actions[i]` | not executed | Subgraph.ActionsCrossWiringFails | Subgraph.GetActionsFixed |

=== FILE: api_errors.dfy ===
/** The `/api` error handler: it turns an error object into a plain-text reply whose
    status comes from the error's `code` and whose body depends on the run mode. */
module ApiErrors {
  import opened Failures

  /** The body of an error reply: a literal text, or the engine-generated stack
      trace of the error (whose exact text this model does not produce). */
  datatype ErrorBody = Message(text: string) | StackOf(error: ErrorValue)

  datatype ErrorReply = ErrorReply(status: JsNumber, contentType: string, body: ErrorBody)

  const DefaultStatus: int := 500

  /** `Number(err.code) || 500`. */
  function StatusOf(err: ErrorValue): (s: JsNumber)
    ensures Truthy(s)
    ensures Truthy(CodeToNumber(err.code)) ==> s == CodeToNumber(err.code)
    ensures !Truthy(CodeToNumber(err.code)) ==> s == Integral(DefaultStatus)
  {
    var n := CodeToNumber(err.code);
    if Truthy(n) then n else Integral(DefaultStatus)
  }

  /** The reply the `/api` error handler sends for `err`. In production only an
      error whose code is the number 400 (strict equality) reveals its message;
      every other error gets an empty body. Outside production the body is the
      stack trace. */
  function HandleApiError(err: ErrorValue, production: bool): (r: ErrorReply)
    ensures r.contentType == "text/plain"
    ensures r.status == StatusOf(err)
    ensures production && err.code == NumberCode(Integral(400)) ==> r.body == Message(err.message)
    ensures production && err.code != NumberCode(Integral(400)) ==> r.body == Message("")
    ensures !production ==> r.body == StackOf(err)
  {
    var body :=
      if production then (if err.code == NumberCode(Integral(400)) then Message(err.message) else Message(""))
      else StackOf(err);
    ErrorReply(StatusOf(err), "text/plain", body)
  }

  /** A client error raised with `createHttpError(400, m)` reaches the client as
      status 400, and in production with `m` as the body. */
  lemma ClientErrorReply(m: string, production: bool)
    ensures HandleApiError(ToErrorValue(Http(400, m)), production).status == Integral(400)
    ensures production ==> HandleApiError(ToErrorValue(Http(400, m)), production).body == Message(m)
  {
  }

  /** A code of "400" as a string gives status 400, but strict equality keeps its
      message out of the production body. */
  lemma StringCodeHidesMessage(m: string)
    ensures HandleApiError(ErrorValue(StringCode("400", Integral(400)), m), true)
      == ErrorReply(Integral(400), "text/plain", Message(""))
  {
  }

  /** Errors without a usable code (an absent code, NaN, zero) become status 500
      with nothing revealed in production. */
  lemma CodelessErrorIsServerError(err: ErrorValue)
    requires !Truthy(CodeToNumber(err.code))
    ensures HandleApiError(err, true) == ErrorReply(Integral(500), "text/plain", Message(""))
  {
  }

  /** Every failure other than a 400 HTTP error is hidden in production. */
  lemma FailureHiddenUnlessClientError(f: Failure)
    requires !(f.Http? && f.status == 400)
    requires !(f.Upstream? && f.error.code == NumberCode(Integral(400)))
    ensures HandleApiError(ToErrorValue(f), true).body == Message("")
  {
  }
}

=== FILE: arith.dfy ===
/** Small facts of integer division used by the bucket and fee arithmetic. */
module Arith {

  lemma DivMod(a: int, p: int)
    requires p > 0
    ensures a == p * (a / p) + a % p
    ensures 0 <= a % p < p
  {
  }

  lemma MulAtLeast(p: int, d: int)
    requires p > 0 && d >= 1
    ensures p * d >= p
  {
  }

  lemma Distrib(p: int, q: int, q': int)
    ensures p * q - p * q' == p * (q - q')
  {
  }

  /** Quotient and remainder are determined by `a == p * q + r` with `0 <= r < p`. */
  lemma DivModUnique(a: int, p: int, q: int, r: int)
    requires p > 0 && 0 <= r < p && a == p * q + r
    ensures a / p == q && a % p == r
  {
    DivMod(a, p);
    var q', r' := a / p, a % p;
    Distrib(p, q, q');
    if q' < q {
      MulAtLeast(p, q - q');
    } else if q' > q {
      Distrib(p, q', q);
      MulAtLeast(p, q' - q);
    }
  }

  /** Division of a non-negative number by a positive one (BigNumber `div`,
      which truncates; for these operands it agrees with Dafny's division). */
  function DivTrunc(x: nat, d: nat): nat
    requires d > 0
  {
    x / d
  }

  /** Truncating division of a non-negative number brackets it between two
      consecutive multiples of the divisor. */
  lemma DivBracket(x: nat, d: nat)
    requires d > 0
    ensures (x / d) * d <= x < (x / d + 1) * d
  {
    DivMod(x, d);
    assert (x / d + 1) * d == (x / d) * d + d;
  }
}

=== FILE: buckets.dfy ===
/** Time buckets for the hourly and daily volume routes: `now` (seconds) rounded
    down to a period boundary, matched exactly by the subgraph query. */
module Buckets {
  import opened Arith

  const HourSeconds: nat := 3600
  const DaySeconds: nat := 86400

  /** `Math.floor(Date.now() / 1000)`: wall-clock milliseconds to whole seconds. */
  function NowSeconds(nowMillis: nat): (s: nat)
    ensures s * 1000 <= nowMillis < (s + 1) * 1000
  {
    nowMillis / 1000
  }

  /** `t - (t % period)`: the last boundary of the period at or before t. */
  function AlignDown(t: nat, period: nat): (b: nat)
    requires period > 0
    ensures b % period == 0
    ensures b <= t
    ensures t - b < period
  {
    DivMod(t, period);
    DivModUnique(t - t % period, period, t / period, 0);
    t - t % period
  }

  function HourlyBucket(now: nat): nat {
    AlignDown(now, HourSeconds)
  }

  function DailyBucket(now: nat): nat {
    AlignDown(now, DaySeconds)
  }

  /** The bucket is the only multiple of the period in (t - period, t]. */
  lemma AlignDownUnique(t: nat, period: nat, m: nat)
    requires period > 0
    requires m % period == 0 && m <= t && t - m < period
    ensures m == AlignDown(t, period)
  {
    DivMod(m, period);
    DivModUnique(t, period, m / period, t - m);
  }

  lemma AlignDownIdempotent(t: nat, period: nat)
    requires period > 0
    ensures AlignDown(AlignDown(t, period), period) == AlignDown(t, period)
  {
    var b := AlignDown(t, period);
    AlignDownUnique(b, period, b);
  }

  /** Later times never fall into an earlier bucket. */
  lemma AlignDownMonotone(s: nat, t: nat, period: nat)
    requires period > 0
    requires s <= t
    ensures AlignDown(s, period) <= AlignDown(t, period)
  {
    var a, b := AlignDown(s, period), AlignDown(t, period);
    if a > b {
      AlignDownUnique(t, period, a);
    }
  }

  /** Both buckets lie within one period of now, at or before it, on a boundary. */
  lemma BucketBounds(now: nat)
    ensures HourlyBucket(now) % HourSeconds == 0 && HourlyBucket(now) <= now < HourlyBucket(now) + HourSeconds
    ensures DailyBucket(now) % DaySeconds == 0 && DailyBucket(now) <= now < DailyBucket(now) + DaySeconds
    ensures HourlyBucket(HourlyBucket(now)) == HourlyBucket(now)
    ensures DailyBucket(DailyBucket(now)) == DailyBucket(now)
  {
    AlignDownIdempotent(now, HourSeconds);
    AlignDownIdempotent(now, DaySeconds);
  }

  /** A day boundary is an hour boundary, and the daily bucket never comes after
      the hourly one. */
  lemma DailyBucketIsHourly(now: nat)
    ensures DailyBucket(now) % HourSeconds == 0
    ensures HourlyBucket(DailyBucket(now)) == DailyBucket(now)
    ensures DailyBucket(now) <= HourlyBucket(now)
  {
    var d := DailyBucket(now);
    var q := d / DaySeconds;
    DivMod(d, DaySeconds);
    assert d == HourSeconds * (24 * q);
    DivModUnique(d, HourSeconds, 24 * q, 0);
    AlignDownUnique(d, HourSeconds, d);
    AlignDownMonotone(d, now, HourSeconds);
  }
}

=== FILE: catalog.dfy ===
/** The per-chain token catalog: static configuration read by the service. Only the
    Meter testnet catalog exists, with the MTR and MTRG tokens in that order. */
module Catalog {
  import opened Wrappers

  datatype TokenRecord = TokenRecord(
    name: string,
    address: string,
    decimals: nat,
    priceFeed: string,
    priceDecimals: nat,
    fastPricePrecision: nat,
    maxCumulativeDeltaDiff: nat,
    isStrictStable: bool,
    tokenWeight: nat,
    minProfitBps: nat,
    maxUsdgAmount: nat,
    bufferAmount: nat,
    isStable: bool,
    isShortable: bool,
    maxGlobalLongSize: nat,
    maxGlobalShortSize: nat,
    spreadBasisPoints: Option<nat>)   // MTRG's entry has no spreadBasisPoints

  const Mtr := TokenRecord(
    "MTR", "0xfAC315d105E5A7fe2174B3EB1f95C257A9A5e271", 18,
    "0xCd5CB72EF809059Fa10773c6a4E13C9aa7D1983f", 18, 1000, 1000000, false,
    7000, 0, 5000000, 200000, false, true, 1000000, 500000, Some(0))

  const Mtrg := TokenRecord(
    "MTRG", "0x8a419ef4941355476cf04933e90bf3bbf2f73814", 18,
    "0x10312f9cc653c09E30789e053be322D17b0C7cF5", 18, 1000, 1000000, false,
    20000, 0, 30000000, 5500, false, true, 15000000, 8000000, None)

  /** `Object.values(allTokens.metertest)`: insertion order. */
  const MeterTestCatalog: seq<TokenRecord> := [Mtr, Mtrg]

  /** The addresses of a catalog, in catalog order. */
  function Addresses(catalog: seq<TokenRecord>): (r: seq<string>)
    ensures |r| == |catalog|
    ensures forall i :: 0 <= i < |catalog| ==> r[i] == catalog[i].address
  {
    seq(|catalog|, i requires 0 <= i < |catalog| => catalog[i].address)
  }

  /** No two catalog entries share an address, so keying by address loses nothing. */
  predicate DistinctAddresses(catalog: seq<TokenRecord>) {
    forall i, j :: 0 <= i < j < |catalog| ==> catalog[i].address != catalog[j].address
  }

  /** The shipped catalog's two tokens have different addresses. */
  lemma MeterTestCatalogDistinct()
    ensures DistinctAddresses(MeterTestCatalog)
    ensures Addresses(MeterTestCatalog) == [Mtr.address, Mtrg.address]
  {
  }
}

=== FILE: failures.dfy ===
/** The values the service's failures are made of: JavaScript numbers as far as
    `Number(...)` and truthiness need them, the `code` property of an error object,
    and the closed set of failures the modelled operations raise. */
module Failures {
  import opened Wrappers
  import opened Text

  /** A JavaScript number. `NonIntegral` covers every finite non-integer and the
      infinities; it carries the text JavaScript renders for it. */
  datatype JsNumber = NaN | Integral(value: int) | NonIntegral(text: string)

  /** JavaScript truthiness of a number: only NaN and zero are falsy. */
  predicate Truthy(n: JsNumber) {
    match n
    case NaN => false
    case Integral(v) => v != 0
    case NonIntegral(_) => true
  }

  /** The text a template literal produces for a number (integers below 10^21). */
  function NumberText(n: JsNumber): string {
    match n
    case NaN => "NaN"
    case Integral(v) => IntToString(v)
    case NonIntegral(t) => t
  }

  /** 2^53: every integer up to it is a double, and the next one, 2^53 + 1, is not. */
  const ExactIntegerBound: nat := 9007199254740992

  /** `Number(param)` for a query parameter, where the model can say what it is:
      an absent parameter is NaN, the empty string is 0 and a string of decimal
      digits is that integer as long as a double holds it exactly (at most
      2^53). Larger digit strings, which `Number` rounds, and any other text
      (hex, signs, blanks, exponents) are not modelled and yield None. */
  function NumberOfParam(param: Option<string>): (r: Option<JsNumber>)
    ensures param.None? ==> r == Some(NaN)
    ensures param.Some? && AllDigits(param.value) && ParseDigits(param.value) <= ExactIntegerBound
            ==> r == Some(Integral(ParseDigits(param.value)))
    ensures r.Some? && r.value.Integral? ==> 0 <= r.value.value <= ExactIntegerBound
    ensures param.Some? ==> r != Some(NaN)
  {
    match param
    case None => Some(NaN)
    case Some(s) => if AllDigits(s) && ParseDigits(s) <= ExactIntegerBound then Some(Integral(ParseDigits(s))) else None
  }

  /** The decimal text of n is read back as n exactly when a double holds n. */
  lemma NumberOfParamReadsDecimal(n: nat)
    ensures n <= ExactIntegerBound ==> NumberOfParam(Some(NatToString(n))) == Some(Integral(n))
    ensures n > ExactIntegerBound ==> NumberOfParam(Some(NatToString(n))) == None
  {
    ParseNatToString(n);
  }

  /** The `code` property of an error object: absent, a number, or a string
      (together with what `Number` makes of that string). */
  datatype Code = NoCode | NumberCode(number: JsNumber) | StringCode(text: string, asNumber: JsNumber)

  /** `Number(err.code)`. */
  function CodeToNumber(c: Code): JsNumber {
    match c
    case NoCode => NaN
    case NumberCode(n) => n
    case StringCode(_, n) => n
  }

  /** An error object as the `/api` error handler receives it. */
  datatype ErrorValue = ErrorValue(code: Code, message: string)

  /** The failures raised by the modelled code. */
  datatype Failure =
    | UnknownChain(chain: string)                // new Error(`Unknown chain ...`)
    | UnknownAddressKey(key: string)             // new Error(`Unknown address key ...`)
    | InOperatorOnUndefined(key: string)         // TypeError: `key in undefined`
    | PropertyOfUndefined(property: string)      // TypeError: reading a property of undefined
    | Http(status: nat, message: string)         // createHttpError(status, message)
    | InvalidBigNumber                           // a BigNumber operation given `undefined`
    | Upstream(error: ErrorValue)                // an error thrown by a collaborator, passed on as is

  /** The error object each failure is, as seen by the error handler.
      Plain `Error`s and `TypeError`s carry no `code`; an HTTP error carries
      its status as a numeric `code`. */
  function ToErrorValue(f: Failure): (e: ErrorValue)
    ensures e.code == NumberCode(Integral(400)) <==> (f.Http? && f.status == 400) || (f.Upstream? && f.error.code == NumberCode(Integral(400)))
    ensures f.Http? ==> e.message == f.message
  {
    match f
    case UnknownChain(c) => ErrorValue(NoCode, "Unknown chain " + c)
    case UnknownAddressKey(k) => ErrorValue(NoCode, "Unknown address key " + k)
    case InOperatorOnUndefined(k) => ErrorValue(NoCode, "Cannot use 'in' operator to search for '" + k + "' in undefined")
    case PropertyOfUndefined(p) => ErrorValue(NoCode, "Cannot read properties of undefined (reading '" + p + "')")
    case Http(s, m) => ErrorValue(NumberCode(Integral(s)), m)
    // The BigNumber library is not part of this model; its argument error is
    // taken to carry the string code "INVALID_ARGUMENT", which is NaN as a number.
    case InvalidBigNumber => ErrorValue(StringCode("INVALID_ARGUMENT", NaN), "invalid BigNumber value")
    case Upstream(e) => e
  }
}

=== FILE: fees.dfy ===
/** `/api/fees_summary`: every token's fee amount converted to the common USD unit
    with the token's `minPrice` and decimals, summed with exact integers. */
module Fees {
  import opened Wrappers
  import opened Arith
  import opened Failures
  import opened Catalog
  import opened VaultDecode

  function Pow10(d: nat): (r: nat)
    ensures r >= 1
  {
    if d == 0 then 1 else 10 * Pow10(d - 1)
  }

  lemma {:induction false} Pow10Add(a: nat, b: nat)
    ensures Pow10(a + b) == Pow10(a) * Pow10(b)
    decreases a
  {
    if a > 0 {
      Pow10Add(a - 1, b);
      assert Pow10(a + b) == 10 * Pow10(a - 1 + b);
    }
  }

  /** `expandDecimals(n, decimals)`: n scaled by 10^decimals. */
  function ExpandDecimals(n: int, decimals: nat): int {
    n * Pow10(decimals)
  }

  /** Scaling twice is scaling once by the summed exponent. */
  lemma ExpandDecimalsCompose(n: int, a: nat, b: nat)
    ensures ExpandDecimals(ExpandDecimals(n, a), b) == ExpandDecimals(n, a + b)
  {
    Pow10Add(a, b);
  }

  /** `expandDecimals(1, d)` is 10^d, so a scale of 18 decimals is 10^18. */
  lemma ExpandDecimalsOne(d: nat)
    ensures ExpandDecimals(1, d) == Pow10(d)
    ensures ExpandDecimals(1, 18) == 1000000000000000000
  {
    assert Pow10(6) == 1000000;
    Pow10Add(6, 6);
    Pow10Add(12, 6);
  }

  /** One token's fee in USD: `fee * minPrice` divided by `expandDecimals(1, decimals)`
      (10^decimals, see ExpandDecimalsOne) with the
      remainder dropped (BigNumber division truncates; all operands are non-negative). */
  function FeeInUsd(fee: nat, minPrice: nat, decimals: nat): nat {
    DivTrunc(fee * minPrice, Pow10(decimals))
  }

  /** The fee in USD is the largest r with r * 10^decimals <= fee * minPrice. */
  lemma FeeInUsdTruncates(fee: nat, minPrice: nat, decimals: nat)
    ensures FeeInUsd(fee, minPrice, decimals) * Pow10(decimals) <= fee * minPrice
    ensures fee * minPrice < (FeeInUsd(fee, minPrice, decimals) + 1) * Pow10(decimals)
  {
    DivBracket(fee * minPrice, Pow10(decimals));
  }

  /** Every catalog token has an entry in the snapshot. */
  predicate Covers(catalog: seq<TokenRecord>, info: map<string, InfoToken>) {
    forall i :: 0 <= i < |catalog| ==> catalog[i].address in info
  }

  function Sum(s: seq<nat>): nat {
    if |s| == 0 then 0 else Sum(s[..|s| - 1]) + s[|s| - 1]
  }

  lemma {:induction false} SumAppend(s: seq<nat>, x: nat)
    ensures Sum(s + [x]) == Sum(s) + x
  {
    assert (s + [x])[..|s|] == s;
  }

  /** Each token's fee in USD, with the minPrice taken from the snapshot entry at
      the token's address, in catalog order. */
  function FeeTerms(catalog: seq<TokenRecord>, fees: seq<nat>, info: map<string, InfoToken>): (r: seq<nat>)
    requires |catalog| <= |fees|
    requires Covers(catalog, info)
    ensures |r| == |catalog|
  {
    seq(|catalog|, i requires 0 <= i < |catalog| =>
      FeeInUsd(fees[i], info[catalog[i].address].vault.minPrice, catalog[i].decimals))
  }

  /** The total the service reports: the sum of the fee terms. */
  function TotalFees(catalog: seq<TokenRecord>, fees: seq<nat>, info: map<string, InfoToken>): nat
    requires |catalog| <= |fees|
    requires Covers(catalog, info)
  {
    Sum(FeeTerms(catalog, fees, info))
  }

  /** The fees loop of `/api/fees_summary` as a loop, on inputs where it runs
      to completion: a fee amount per token and a snapshot entry for every
      token. FeesUsdUpTo is the same loop on inputs of any length, with its
      failures; the routes use that one. */
  method ComputeFeesUsd(catalog: seq<TokenRecord>, fees: seq<nat>, info: map<string, InfoToken>)
    returns (feesUsd: nat)
    requires |catalog| <= |fees|
    requires Covers(catalog, info)
    ensures feesUsd == TotalFees(catalog, fees, info)
  {
    ghost var terms := FeeTerms(catalog, fees, info);
    feesUsd := 0;
    var i := 0;
    while i < |catalog|
      invariant 0 <= i <= |catalog|
      invariant feesUsd == Sum(terms[..i])
    {
      var token := catalog[i];
      var feeInUsd := FeeInUsd(fees[i], info[token.address].vault.minPrice, token.decimals);
      assert terms[..i + 1] == terms[..i] + [feeInUsd];
      SumAppend(terms[..i], feeInUsd);
      feesUsd := feesUsd + feeInUsd;
      i := i + 1;
    }
    assert terms[..i] == terms;
  }

  lemma EmptyCatalogHasNoFees(fees: seq<nat>, info: map<string, InfoToken>)
    ensures TotalFees([], fees, info) == 0
  {
  }

  /** Appending a token adds exactly its own fee, so the total never decreases. */
  lemma AppendTokenAddsItsFee(catalog: seq<TokenRecord>, t: TokenRecord, fees: seq<nat>, info: map<string, InfoToken>)
    requires |catalog| + 1 <= |fees|
    requires Covers(catalog + [t], info)
    requires t.address in info
    ensures Covers(catalog, info)
    ensures TotalFees(catalog + [t], fees, info)
            == TotalFees(catalog, fees, info) + FeeInUsd(fees[|catalog|], info[t.address].vault.minPrice, t.decimals)
    ensures TotalFees(catalog + [t], fees, info) >= TotalFees(catalog, fees, info)
  {
    assert forall i :: 0 <= i < |catalog| ==> (catalog + [t])[i] == catalog[i];
    var term := FeeInUsd(fees[|catalog|], info[t.address].vault.minPrice, t.decimals);
    assert FeeTerms(catalog + [t], fees, info) == FeeTerms(catalog, fees, info) + [term];
    SumAppend(FeeTerms(catalog, fees, info), term);
  }

  /** The positional reference: the terms (fees[i] * flat[10i+5]) div 10^decimals_i,
      read straight from the reader's flat result. */
  function FlatFeeTerms(catalog: seq<TokenRecord>, fees: seq<nat>, flat: seq<nat>): (r: seq<nat>)
    requires |catalog| <= |fees|
    requires 10 * |catalog| <= |flat|
    ensures |r| == |catalog|
  {
    seq(|catalog|, i requires 0 <= i < |catalog| => FeeInUsd(fees[i], flat[10 * i + 5], catalog[i].decimals))
  }

  /** With distinct addresses, summing over the address-keyed snapshot is the
      positional sum over the flat read: minPrice is slot 5 of each token. */
  lemma TotalFeesFromSnapshot(catalog: seq<TokenRecord>, fees: seq<nat>, flat: seq<nat>)
    requires |catalog| <= |fees|
    requires 10 * |catalog| <= |flat|
    requires DistinctAddresses(catalog)
    ensures Covers(catalog, InfoTokens(catalog, flat))
    ensures TotalFees(catalog, fees, InfoTokens(catalog, flat)) == Sum(FlatFeeTerms(catalog, fees, flat))
  {
    var info := InfoTokens(catalog, flat);
    forall i | 0 <= i < |catalog|
      ensures info[catalog[i].address].vault.minPrice == flat[10 * i + 5]
    {
      InfoTokensAt(catalog, flat, i);
    }
    assert FeeTerms(catalog, fees, info) == FlatFeeTerms(catalog, fees, flat);
  }

  // ------------------------------------------------ reader answers left short

  /** The `minPrice` that `infoTokens[a]` holds after `getInfoTokens` over a
      reader answer that may be short: slot 5 of the last token with address
      `a`, or None when no token has that address or the slot lies past the end
      of the answer (`undefined`). */
  function MinPriceRead(catalog: seq<TokenRecord>, flat: seq<nat>, a: string): Option<nat> {
    match LastWith(catalog, |catalog|, a)
    case None => None
    case Some(j) => if 10 * j + 5 < |flat| then Some(flat[10 * j + 5]) else None
  }

  /** Every one of the first `k` tokens finds a `minPrice` in the answer. */
  predicate PricesRead(catalog: seq<TokenRecord>, flat: seq<nat>, k: nat)
    requires k <= |catalog|
  {
    forall j :: 0 <= j < k ==> MinPriceRead(catalog, flat, catalog[j].address).Some?
  }

  /** The first `k` fee terms in catalog order, each priced with the
      `minPrice` the answer holds for the token's address. */
  function ReadTerms(catalog: seq<TokenRecord>, fees: seq<nat>, flat: seq<nat>, k: nat): (r: seq<nat>)
    requires k <= |catalog| && k <= |fees|
    requires PricesRead(catalog, flat, k)
    ensures |r| == k
  {
    seq(k, j requires 0 <= j < k =>
      FeeInUsd(fees[j], MinPriceRead(catalog, flat, catalog[j].address).value, catalog[j].decimals))
  }

  /** One more token appends its own term. */
  lemma ReadTermsStep(catalog: seq<TokenRecord>, fees: seq<nat>, flat: seq<nat>, k: nat)
    requires 0 < k <= |catalog| && k <= |fees|
    requires PricesRead(catalog, flat, k)
    ensures PricesRead(catalog, flat, k - 1)
    ensures ReadTerms(catalog, fees, flat, k)
            == ReadTerms(catalog, fees, flat, k - 1)
               + [FeeInUsd(fees[k - 1], MinPriceRead(catalog, flat, catalog[k - 1].address).value,
                           catalog[k - 1].decimals)]
  {
  }

  /** Token `j`'s `minPrice` as the fees loop reads it: present whenever the
      answer holds ten values per token, and then the snapshot's. */
  lemma MinPriceOfToken(catalog: seq<TokenRecord>, flat: seq<nat>, j: nat)
    requires j < |catalog|
    ensures 10 * |catalog| <= |flat| ==>
              && catalog[j].address in InfoTokens(catalog, flat)
              && MinPriceRead(catalog, flat, catalog[j].address)
                 == Some(InfoTokens(catalog, flat)[catalog[j].address].vault.minPrice)
  {
    if 10 * |catalog| <= |flat| {
      InfoTokensUpToLast(catalog, flat, |catalog|, catalog[j].address);
    }
  }

  /** One more iteration adds the new token's term to the snapshot total. */
  lemma FeesStep(catalog: seq<TokenRecord>, fees: seq<nat>, flat: seq<nat>, k: nat)
    requires 0 < k <= |catalog| && k <= |fees|
    ensures 10 * |catalog| <= |flat| ==>
              && Covers(catalog[..k - 1], InfoTokens(catalog, flat))
              && Covers(catalog[..k], InfoTokens(catalog, flat))
              && TotalFees(catalog[..k], fees, InfoTokens(catalog, flat))
                 == TotalFees(catalog[..k - 1], fees, InfoTokens(catalog, flat))
                    + FeeInUsd(fees[k - 1], InfoTokens(catalog, flat)[catalog[k - 1].address].vault.minPrice,
                               catalog[k - 1].decimals)
  {
    if 10 * |catalog| <= |flat| {
      var info := InfoTokens(catalog, flat);
      assert catalog[..k] == catalog[..k - 1] + [catalog[k - 1]];
      assert forall i :: 0 <= i < k ==> catalog[..k][i] == catalog[i];
      AppendTokenAddsItsFee(catalog[..k - 1], catalog[k - 1], fees, info);
    }
  }

  /** The fees loop of `/api/fees_summary` over the first `k` tokens, with
      answers of any length. A missing fee amount fails reading `mul` off
      `undefined`; a missing `minPrice` fails inside the BigNumber
      multiplication; the first token that fails decides the error. */
  function FeesUsdUpTo(catalog: seq<TokenRecord>, fees: seq<nat>, flat: seq<nat>, k: nat): (r: Result<nat, Failure>)
    requires k <= |catalog|
    ensures r.Success? <==> k <= |fees| && PricesRead(catalog, flat, k)
    ensures r.Success? ==> r.value == Sum(ReadTerms(catalog, fees, flat, k))
    ensures r.Failure? && 10 * |catalog| <= |flat| ==> r.error == PropertyOfUndefined("mul")
    ensures r.Failure? && k <= |fees| ==> r.error == InvalidBigNumber
    ensures r.Success? && 10 * |catalog| <= |flat| ==>
              && Covers(catalog[..k], InfoTokens(catalog, flat))
              && r.value == TotalFees(catalog[..k], fees, InfoTokens(catalog, flat))
    decreases k
  {
    if k == 0 then Success(0)
    else
      var acc :- FeesUsdUpTo(catalog, fees, flat, k - 1);
      var t := catalog[k - 1];
      if |fees| < k then Failure(PropertyOfUndefined("mul"))
      else
        MinPriceOfToken(catalog, flat, k - 1);
        FeesStep(catalog, fees, flat, k);
        match MinPriceRead(catalog, flat, t.address)
        case None => Failure(InvalidBigNumber)
        case Some(p) =>
          ReadTermsStep(catalog, fees, flat, k);
          SumAppend(ReadTerms(catalog, fees, flat, k - 1), FeeInUsd(fees[k - 1], p, t.decimals));
          Success(acc + FeeInUsd(fees[k - 1], p, t.decimals))
  }
}

=== FILE: registry.dfy ===
/** The chain registry: per-chain contract addresses (`getAddress`) and per-chain
    JSON-RPC providers (`getProvider`). Both are JavaScript objects, so their keys
    are strings and a numeric chain id is looked up by its decimal text. */
module Registry {
  import opened Wrappers
  import opened Text
  import opened Failures
  import Catalog

  const MeterTest: int := 83

  /** The property key JavaScript uses for a numeric chain id. */
  function ChainKey(chain: int): string {
    IntToString(chain)
  }

  /** chain key -> (symbolic key -> address). */
  type AddressTable = map<string, map<string, string>>

  const MeterTestAddresses: map<string, string> := map[
    "GMX" := "0x635bB9a3FeE749dcfC4beaE64DbcE7a24201C478",
    "MTR" := "0xfAC315d105E5A7fe2174B3EB1f95C257A9A5e271",
    "MTRG" := "0x8a419ef4941355476cf04933e90bf3bbf2f73814",
    "RewardReader" := "0x95801D11abfce3db2D9fEE98436241aB3Fa2E864",
    "GLP" := "0x11698092eeA7782a3d961F78f71C759664B6C718",
    "GlpManager" := "0x94dB843CB32842b81D1102D77f5F5F946Ce2a2D1"]

  /** The shipped `addresses` object: only the Meter testnet. */
  const ShippedAddresses: AddressTable := map["83" := MeterTestAddresses]

  /** Every key of the table is the text of a chain id, as it is when the table is
      written with computed numeric keys such as `[METERTEST]`. */
  ghost predicate ChainKeyed(table: AddressTable) {
    forall k :: k in table ==> exists c: int :: ChainKey(c) == k
  }

  /** The property key the boolean `!chainId` converts to inside `in`. */
  function BoolKey(b: bool): string {
    if b then "true" else "false"
  }

  /** The text of a chain id is never "true" or "false". */
  lemma ChainKeyIsNotBoolKey(c: int, b: bool)
    ensures ChainKey(c) != BoolKey(b)
  {
    var s := ChainKey(c);
    assert s[0] == '-' || IsDigit(s[0]);
    assert BoolKey(b)[0] == 't' || BoolKey(b)[0] == 'f';
  }

  /** The unknown-chain guard `!(chainId) in addresses` parses as
      `(!chainId) in addresses`: it asks for the key "true" or "false", which a
      table keyed by chain ids never has. */
  lemma GuardNeverFires(table: AddressTable, b: bool)
    requires ChainKeyed(table)
    ensures BoolKey(b) !in table
  {
    if BoolKey(b) in table {
      var c: int :| ChainKey(c) == BoolKey(b);
      ChainKeyIsNotBoolKey(c, b);
    }
  }

  lemma ShippedAddressesChainKeyed()
    ensures ChainKeyed(ShippedAddresses)
    ensures ChainKey(MeterTest) == "83"
  {
    assert ChainKey(MeterTest) == "83";
  }

  /** `getAddress(chainId, key)` as written. When the chain is not in the table
      the guard does not fire, and `key in undefined` throws a TypeError. */
  function GetAddress(table: AddressTable, chain: int, key: string): (r: Result<string, Failure>)
    ensures r.Success? ==> ChainKey(chain) in table && key in table[ChainKey(chain)]
                           && r.value == table[ChainKey(chain)][key]
    ensures ChainKeyed(table) && ChainKey(chain) in table && key in table[ChainKey(chain)]
            ==> r == Success(table[ChainKey(chain)][key])
    ensures ChainKeyed(table) && ChainKey(chain) in table && key !in table[ChainKey(chain)]
            ==> r == Failure(UnknownAddressKey(key))
    ensures ChainKeyed(table) && ChainKey(chain) !in table
            ==> r == Failure(InOperatorOnUndefined(key))
    ensures ChainKeyed(table) ==> !r.Failure? || !r.error.UnknownChain?
  {
    GuardNeverFiresHere(table, chain);
    if BoolKey(chain == 0) in table then Failure(UnknownChain(ChainKey(chain)))
    else if ChainKey(chain) !in table then Failure(InOperatorOnUndefined(key))
    else if key !in table[ChainKey(chain)] then Failure(UnknownAddressKey(key))
    else Success(table[ChainKey(chain)][key])
  }

  /** `!chainId` for a number is true exactly for 0 (chain ids are never NaN here). */
  lemma GuardNeverFiresHere(table: AddressTable, chain: int)
    ensures ChainKeyed(table) ==> BoolKey(chain == 0) !in table
  {
    if ChainKeyed(table) {
      GuardNeverFires(table, chain == 0);
    }
  }

  /** The lookup with the guard the code evidently intends, `!(chainId in addresses)`. */
  function GetAddressChecked(table: AddressTable, chain: int, key: string): (r: Result<string, Failure>)
    ensures r.Success? <==> ChainKey(chain) in table && key in table[ChainKey(chain)]
    ensures r.Success? ==> r.value == table[ChainKey(chain)][key]
    ensures ChainKey(chain) !in table ==> r == Failure(UnknownChain(ChainKey(chain)))
    ensures ChainKey(chain) in table && key !in table[ChainKey(chain)] ==> r == Failure(UnknownAddressKey(key))
  {
    if ChainKey(chain) !in table then Failure(UnknownChain(ChainKey(chain)))
    else if key !in table[ChainKey(chain)] then Failure(UnknownAddressKey(key))
    else Success(table[ChainKey(chain)][key])
  }

  /** On a registered chain the two lookups agree, so every call the routes make
      (all for the Meter testnet) behaves the same under either. */
  lemma LookupsAgreeOnRegisteredChains(table: AddressTable, chain: int, key: string)
    requires ChainKeyed(table)
    requires ChainKey(chain) in table
    ensures GetAddress(table, chain, key) == GetAddressChecked(table, chain, key)
  {
  }

  /** The precedence bug, exhibited: chain 1 is not registered, yet the lookup
      fails with a TypeError instead of "Unknown chain 1". */
  lemma UnknownChainIsTypeError()
    ensures GetAddress(ShippedAddresses, 1, "GMX") == Failure(InOperatorOnUndefined("GMX"))
    ensures GetAddressChecked(ShippedAddresses, 1, "GMX") == Failure(UnknownChain("1"))
  {
    ShippedAddressesChainKeyed();
    assert ChainKey(1) == "1";
  }

  /** No unregistered chain ever yields an address, under either lookup. */
  lemma UnknownChainNeverResolves(table: AddressTable, chain: int, key: string)
    requires ChainKey(chain) !in table
    ensures GetAddress(table, chain, key).Failure?
    ensures GetAddressChecked(table, chain, key).Failure?
  {
  }

  /** The Meter testnet entry holds exactly six keys; the `Vault`, `Reader` and
      witnet-feed keys the routes ask for are missing from it. */
  lemma ShippedMeterTestKeys()
    ensures ChainKey(MeterTest) in ShippedAddresses
    ensures ShippedAddresses[ChainKey(MeterTest)].Keys == {"GMX", "MTR", "MTRG", "RewardReader", "GLP", "GlpManager"}
    ensures GetAddress(ShippedAddresses, MeterTest, "Vault") == Failure(UnknownAddressKey("Vault"))
    ensures GetAddress(ShippedAddresses, MeterTest, "Reader") == Failure(UnknownAddressKey("Reader"))
    ensures GetAddress(ShippedAddresses, MeterTest, "IWitnetFeed_MTR") == Failure(UnknownAddressKey("IWitnetFeed_MTR"))
    ensures GetAddress(ShippedAddresses, MeterTest, "IWitnetFeed_MTRG") == Failure(UnknownAddressKey("IWitnetFeed_MTRG"))
  {
    ShippedAddressesChainKeyed();
  }

  /** The registry's MTR and MTRG addresses are the catalog's token addresses. */
  lemma ShippedTokenAddressesMatchCatalog()
    ensures GetAddress(ShippedAddresses, MeterTest, "MTR") == Success(Catalog.Mtr.address)
    ensures GetAddress(ShippedAddresses, MeterTest, "MTRG") == Success(Catalog.Mtrg.address)
  {
    ShippedAddressesChainKeyed();
  }

  datatype Provider = JsonRpcProvider(url: string)

  /** chain key -> provider. */
  type ProviderTable = map<string, Provider>

  const ShippedProviders: ProviderTable := map["83" := JsonRpcProvider("https://rpctest.meter.io")]

  /** `getProvider(chainName)`: the provider registered for the chain, or
      "Unknown chain ...". */
  function GetProvider(providers: ProviderTable, chain: int): (r: Result<Provider, Failure>)
    ensures r.Success? <==> ChainKey(chain) in providers
    ensures r.Success? ==> r.value == providers[ChainKey(chain)]
    ensures r.Failure? ==> r.error == UnknownChain(ChainKey(chain))
  {
    if ChainKey(chain) !in providers then Failure(UnknownChain(ChainKey(chain)))
    else Success(providers[ChainKey(chain)])
  }

  /** With the shipped providers only the Meter testnet resolves. */
  lemma ShippedProviderOnlyMeterTest(chain: int)
    ensures GetProvider(ShippedProviders, chain).Success? <==> chain == MeterTest
    ensures chain == MeterTest ==> GetProvider(ShippedProviders, chain) == Success(JsonRpcProvider("https://rpctest.meter.io"))
  {
    ShippedAddressesChainKeyed();
    if ChainKey(chain) == "83" {
      IntToStringInjective(chain, MeterTest);
    }
  }
}

=== FILE: routes.dfy ===
/** The API handlers of the stats service, each as one sequential function from
    its request parameters and the results of its remote reads to its reply.
    Remote reads (contract calls, subgraph answers), the clock and the
    collaborators that are not part of this model (`getPricesLimit`,
    `getLastUpdatedTimestamp`, `queryEarnData`) are parameters. */
module Routes {
  import opened Wrappers
  import opened Text
  import opened Failures
  import opened ApiErrors
  import opened Catalog
  import opened Registry
  import opened VaultDecode
  import opened Fees
  import opened Buckets
  import opened Subgraph
  import opened Validation

  /** The configuration the handlers read: the address table, the providers
      and the token catalog of the Meter testnet. */
  datatype Env = Env(addresses: AddressTable, providers: ProviderTable, catalog: seq<TokenRecord>)

  /** The configuration as shipped. */
  const Shipped: Env := Env(ShippedAddresses, ShippedProviders, MeterTestCatalog)

  /** `getAddress(METERTEST, key)`, with the corrected unknown-chain guard
      (see Registry.LookupsAgreeOnRegisteredChains: for a registered chain the
      as-written lookup gives the same result). */
  function Lookup(env: Env, key: string): (r: Result<string, Failure>)
    ensures r.Success? <==> ChainKey(MeterTest) in env.addresses && key in env.addresses[ChainKey(MeterTest)]
  {
    GetAddressChecked(env.addresses, MeterTest, key)
  }

  function Provider(env: Env): Result<Provider, Failure> {
    GetProvider(env.providers, MeterTest)
  }

  // ---------------------------------------------------------------- tokens

  /** The arguments of `reader.getVaultTokenInfo` in `getInfoTokens`. */
  datatype VaultTokenInfoCall = VaultTokenInfoCall(reader: string, vault: string, weth: string, usdgAmount: int, tokens: seq<string>)

  /** The reader call `getInfoTokens` makes, or the first lookup that fails:
      provider, then Reader, Vault and MTR addresses. */
  function InfoTokensCall(env: Env): (r: Result<VaultTokenInfoCall, Failure>)
    ensures r.Success? <==> Provider(env).Success? && Lookup(env, "Reader").Success?
                            && Lookup(env, "Vault").Success? && Lookup(env, "MTR").Success?
    ensures Provider(env).Failure? ==> r == Failure(Provider(env).error)
    ensures Provider(env).Success? && Lookup(env, "Reader").Failure? ==> r == Failure(Lookup(env, "Reader").error)
    ensures Provider(env).Success? && Lookup(env, "Reader").Success? && Lookup(env, "Vault").Failure?
            ==> r == Failure(Lookup(env, "Vault").error)
    ensures Provider(env).Success? && Lookup(env, "Reader").Success? && Lookup(env, "Vault").Success?
            && Lookup(env, "MTR").Failure?
            ==> r == Failure(Lookup(env, "MTR").error)
    ensures r.Success? ==>
              && r.value.reader == Lookup(env, "Reader").value
              && r.value.vault == Lookup(env, "Vault").value
              && r.value.weth == Lookup(env, "MTR").value
              && r.value.usdgAmount == 1000000000000000000
              && r.value.tokens == Addresses(env.catalog)
  {
    var provider :- Provider(env);
    var reader :- Lookup(env, "Reader");
    var vault :- Lookup(env, "Vault");
    var weth :- Lookup(env, "MTR");
    ExpandDecimalsOne(18);
    Success(VaultTokenInfoCall(reader, vault, weth, ExpandDecimals(1, 18), Addresses(env.catalog)))
  }

  /** `/api/tokens`. `flat` is the reader's answer to InfoTokensCall. There is
      no length check: a short answer leaves some field `undefined`, and the
      reshaping fails calling `toString` on it. The last token's last field is
      always emitted, so any short answer fails. */
  function TokensRoute(env: Env, flat: seq<nat>): (r: Result<seq<TokenEntry>, Failure>)
    ensures r.Success? <==> InfoTokensCall(env).Success? && 10 * |env.catalog| <= |flat|
    ensures InfoTokensCall(env).Failure? ==> r == Failure(InfoTokensCall(env).error)
    ensures InfoTokensCall(env).Success? && |flat| < 10 * |env.catalog| ==> r == Failure(PropertyOfUndefined("toString"))
    ensures r.Success? ==> |r.value| == |env.catalog|
    ensures r.Success? ==> forall i :: 0 <= i < |env.catalog| ==> r.value[i].id == env.catalog[i].address
    ensures r.Success? ==> r.value == TokensPayload(env.catalog, flat)
  {
    var provider :- Provider(env);
    var reader :- Lookup(env, "Reader");
    var call :- InfoTokensCall(env);
    if |flat| < 10 * |env.catalog| then Failure(PropertyOfUndefined("toString"))
    else Success(TokensPayload(env.catalog, flat))
  }

  /** On success every entry's nine fields are the decimal texts of the
      token's slots 0, 1, 3, …, 9 of the reader's answer. */
  lemma TokensRouteFields(env: Env, flat: seq<nat>, i: nat)
    requires DistinctAddresses(env.catalog)
    requires i < |env.catalog|
    ensures TokensRoute(env, flat).Success? ==>
              && 10 * |env.catalog| <= |flat|
              && var d := TokensRoute(env, flat).value[i].data;
                 && ParseDigits(d.poolAmount) == flat[10 * i]
                 && ParseDigits(d.reservedAmount) == flat[10 * i + 1]
                 && ParseDigits(d.redemptionAmount) == flat[10 * i + 3]
                 && ParseDigits(d.weight) == flat[10 * i + 4]
                 && ParseDigits(d.minPrice) == flat[10 * i + 5]
                 && ParseDigits(d.maxPrice) == flat[10 * i + 6]
                 && ParseDigits(d.guaranteedUsd) == flat[10 * i + 7]
                 && ParseDigits(d.maxPrimaryPrice) == flat[10 * i + 8]
                 && ParseDigits(d.minPrimaryPrice) == flat[10 * i + 9]
  {
    if TokensRoute(env, flat).Success? {
      TokensPayloadFields(env.catalog, flat, i);
    }
  }

  /** The shipped table has no Reader address, so `/api/tokens` always fails. */
  lemma ShippedTokensRouteFails(flat: seq<nat>)
    ensures TokensRoute(Shipped, flat) == Failure(UnknownAddressKey("Reader"))
  {
    ShippedAddressesChainKeyed();
    assert Provider(Shipped).Success?;
    assert Lookup(Shipped, "Reader") == Failure(UnknownAddressKey("Reader"));
  }

  // ---------------------------------------------------------------- fees

  datatype FeesSummary = FeesSummary(lastUpdatedtotalFeesAt: nat, totalFees: string)

  /** `/api/fees_summary`. `flat` is the reader's answer to InfoTokensCall
      and `fees` its answer to `getFees`; neither length is checked. A short
      fee list fails calling `mul` on `undefined`; a token whose `minPrice`
      slot is missing fails in the BigNumber multiplication. */
  function FeesSummaryRoute(env: Env, flat: seq<nat>, fees: seq<nat>, nowMillis: nat): (r: Result<FeesSummary, Failure>)
    ensures r.Success? <==>
              && InfoTokensCall(env).Success? && |env.catalog| <= |fees|
              && PricesRead(env.catalog, flat, |env.catalog|)
    ensures InfoTokensCall(env).Failure? ==> r == Failure(InfoTokensCall(env).error)
    ensures InfoTokensCall(env).Success? && 10 * |env.catalog| <= |flat| && |fees| < |env.catalog|
            ==> r == Failure(PropertyOfUndefined("mul"))
    ensures InfoTokensCall(env).Success? && |env.catalog| <= |fees| && r.Failure? ==> r == Failure(InvalidBigNumber)
    ensures r.Success? ==> r.value.lastUpdatedtotalFeesAt * 1000 <= nowMillis < (r.value.lastUpdatedtotalFeesAt + 1) * 1000
    ensures r.Success? ==> AllDigits(r.value.totalFees)
    ensures r.Success? ==> ParseDigits(r.value.totalFees) == Sum(ReadTerms(env.catalog, fees, flat, |env.catalog|))
    ensures r.Success? && 10 * |env.catalog| <= |flat| ==>
              ParseDigits(r.value.totalFees) == TotalFees(env.catalog, fees, InfoTokens(env.catalog, flat))
  {
    var provider :- Provider(env);
    var reader :- Lookup(env, "Reader");
    var call :- InfoTokensCall(env);
    // The `getFees` call looks the Vault address up once more; it was found above.
    var vault := call.vault;
    var total :- FeesUsdUpTo(env.catalog, fees, flat, |env.catalog|);
    ParseNatToString(total);
    assert env.catalog[..|env.catalog|] == env.catalog;
    Success(FeesSummary(NowSeconds(nowMillis), NatToString(total)))
  }

  /** With distinct token addresses the reported total is the positional sum
      of `fee_i * flat[10i+5] div 10^decimals_i`. */
  lemma FeesSummaryTotal(env: Env, flat: seq<nat>, fees: seq<nat>, nowMillis: nat)
    requires 10 * |env.catalog| <= |flat|
    requires DistinctAddresses(env.catalog)
    ensures FeesSummaryRoute(env, flat, fees, nowMillis).Success? ==>
              && |env.catalog| <= |fees|
              && ParseDigits(FeesSummaryRoute(env, flat, fees, nowMillis).value.totalFees)
                 == Sum(FlatFeeTerms(env.catalog, fees, flat))
  {
    if FeesSummaryRoute(env, flat, fees, nowMillis).Success? {
      TotalFeesFromSnapshot(env.catalog, fees, flat);
    }
  }

  /** A reader answer missing fields the fees loop does not read is no failure:
      a single token needs only its first six values. */
  lemma FeesSummaryToleratesShortAnswer(env: Env, flat: seq<nat>, fees: seq<nat>, nowMillis: nat)
    requires InfoTokensCall(env).Success?
    requires |env.catalog| == 1 && 1 <= |fees|
    ensures FeesSummaryRoute(env, flat, fees, nowMillis).Success? <==> 6 <= |flat|
  {
    assert MinPriceRead(env.catalog, flat, env.catalog[0].address).Some? <==> 6 <= |flat|;
  }

  lemma ShippedFeesSummaryFails(flat: seq<nat>, fees: seq<nat>, nowMillis: nat)
    ensures FeesSummaryRoute(Shipped, flat, fees, nowMillis) == Failure(UnknownAddressKey("Reader"))
  {
    ShippedAddressesChainKeyed();
  }

  // ---------------------------------------------------------------- prices

  /** The factor `1e12` the feed readings are multiplied by. */
  const PriceScale: nat := 1000000000000

  lemma PriceScaleIsPow10()
    ensures PriceScale == Pow10(12)
  {
    assert Pow10(6) == 1000000;
    Pow10Add(6, 6);
  }

  /** A scaled price as the decimal text of an integer. */
  function PriceText(reading: int): string {
    IntToString(reading * PriceScale)
  }

  /** The feed reading can be recovered from its text. */
  lemma PriceTextRoundTrip(reading: int)
    ensures ParseInt(PriceText(reading)) % PriceScale == 0
    ensures ParseInt(PriceText(reading)) / PriceScale == reading
  {
    ParseIntToString(reading * PriceScale);
  }

  /** `/api/prices`. `lastPrice(feed)` is what the feed contract at address
      `feed` answers. The reply maps the MTR and MTRG addresses to the scaled
      readings of their feeds; were the two addresses equal the MTRG entry
      would overwrite the MTR one, as in an object literal. */
  function PricesRoute(env: Env, lastPrice: string -> int): (r: Result<map<string, string>, Failure>)
    ensures r.Success? <==> Provider(env).Success? && Lookup(env, "IWitnetFeed_MTR").Success?
                            && Lookup(env, "IWitnetFeed_MTRG").Success?
                            && Lookup(env, "MTR").Success? && Lookup(env, "MTRG").Success?
    ensures Provider(env).Success? && Lookup(env, "IWitnetFeed_MTR").Failure?
            ==> r == Failure(Lookup(env, "IWitnetFeed_MTR").error)
    ensures r.Success? ==>
              var mtr, mtrg := Lookup(env, "MTR").value, Lookup(env, "MTRG").value;
              && r.value.Keys == {mtr, mtrg}
              && r.value[mtrg] == PriceText(lastPrice(Lookup(env, "IWitnetFeed_MTRG").value))
              && (mtr != mtrg ==> r.value[mtr] == PriceText(lastPrice(Lookup(env, "IWitnetFeed_MTR").value)))
  {
    var provider :- Provider(env);
    var feedMtr :- Lookup(env, "IWitnetFeed_MTR");
    var feedMtrg :- Lookup(env, "IWitnetFeed_MTRG");
    var priceMtr := PriceText(lastPrice(feedMtr));
    var priceMtrg := PriceText(lastPrice(feedMtrg));
    var mtr :- Lookup(env, "MTR");
    var mtrg :- Lookup(env, "MTRG");
    Success(map[mtr := priceMtr][mtrg := priceMtrg])
  }

  /** The shipped table has no feed addresses, so `/api/prices` always fails. */
  lemma ShippedPricesFail(lastPrice: string -> int)
    ensures PricesRoute(Shipped, lastPrice) == Failure(UnknownAddressKey("IWitnetFeed_MTR"))
  {
    ShippedAddressesChainKeyed();
  }

  // ---------------------------------------------------------------- volumes

  /** `where` is `timestamp: <b>`, b written as `${b}` writes it, with b the
      start of the period containing `now`. */
  predicate FiltersBucket(where: string, period: nat, now: nat)
    requires period > 0
  {
    && |where| > 11 && where[..11] == "timestamp: " && AllDigits(where[11..])
    && var b := ParseDigits(where[11..]);
       && where[11..] == NatToString(b)
       && b % period == 0 && b <= now < b + period
  }

  /** `/api/hourly_volume`: the volumes of the current hour. */
  function HourlyVolumeRoute(nowMillis: nat, data: QueryData): (r: Fetch<seq<VolumeEntry>>)
    ensures WhereOf(r.query, "volumes", VolumeProps).Some?
    ensures FiltersBucket(WhereOf(r.query, "volumes", VolumeProps).value, HourSeconds, NowSeconds(nowMillis))
    ensures r.result.Success? <==> "volumes" in data
    ensures r.result.Success? ==> r.result.value == ReshapeVolumes(data["volumes"])
  {
    var bucket := HourlyBucket(NowSeconds(nowMillis));
    TimestampWhereRoundTrip(bucket);
    assert TimestampWhere(bucket)[..11] == "timestamp: ";
    GetVolumes(TimestampWhere(bucket), data)
  }

  /** `/api/daily_volume`: the volumes of the current day. */
  function DailyVolumeRoute(nowMillis: nat, data: QueryData): (r: Fetch<seq<VolumeEntry>>)
    ensures WhereOf(r.query, "volumes", VolumeProps).Some?
    ensures FiltersBucket(WhereOf(r.query, "volumes", VolumeProps).value, DaySeconds, NowSeconds(nowMillis))
    ensures r.result.Success? <==> "volumes" in data
    ensures r.result.Success? ==> r.result.value == ReshapeVolumes(data["volumes"])
  {
    var bucket := DailyBucket(NowSeconds(nowMillis));
    TimestampWhereRoundTrip(bucket);
    assert TimestampWhere(bucket)[..11] == "timestamp: ";
    GetVolumes(TimestampWhere(bucket), data)
  }

  /** `/api/total_volume`: no filter at all. */
  function TotalVolumeRoute(data: QueryData): (r: Fetch<seq<VolumeEntry>>)
    ensures WhereOf(r.query, "volumes", VolumeProps) == Some("")
    ensures r.result.Success? <==> "volumes" in data
    ensures r.result.Success? ==> r.result.value == ReshapeVolumes(data["volumes"])
  {
    GetVolumes("", data)
  }

  /** The daily filter names an hour boundary too, never later than the hourly one. */
  lemma DailyFilterIsHourBoundary(nowMillis: nat, d1: QueryData, d2: QueryData)
    ensures var daily := WhereOf(DailyVolumeRoute(nowMillis, d1).query, "volumes", VolumeProps).value;
            var hourly := WhereOf(HourlyVolumeRoute(nowMillis, d2).query, "volumes", VolumeProps).value;
            && AllDigits(daily[11..]) && AllDigits(hourly[11..])
            && ParseDigits(daily[11..]) % HourSeconds == 0
            && ParseDigits(daily[11..]) <= ParseDigits(hourly[11..])
  {
    var now := NowSeconds(nowMillis);
    DailyBucketIsHourly(now);
    TimestampWhereRoundTrip(DailyBucket(now));
    TimestampWhereRoundTrip(HourlyBucket(now));
    WhereRoundTrip("volumes", TimestampWhere(DailyBucket(now)), VolumeProps);
    WhereRoundTrip("volumes", TimestampWhere(HourlyBucket(now)), VolumeProps);
  }

  // ---------------------------------------------------------------- actions

  /** `/api/actions`: the actions of the lower-cased account, or all of them,
      each read from its own row (Subgraph.GetActionsFixed; the handler as
      written reads the data fields from `data.volumes`, see Subgraph.GetActions). */
  function ActionsRoute(account: Option<string>, data: QueryData): (r: Fetch<seq<ActionEntry>>)
    ensures WhereOf(r.query, "actions", ActionProps) == Some(ActionsWhere(account))
    ensures r.result.Success? <==> "actions" in data
    ensures "actions" !in data ==> r.result == Failure(PropertyOfUndefined("length"))
    ensures r.result.Success? ==> |r.result.value| == |data["actions"]|
    ensures r.result.Success? ==> r.result.value == ReshapeActions(data["actions"])
  {
    GetActionsFixed(ActionsWhere(account), data)
  }

  /** With no actions the route and the handler as written both reply [];
      on a non-empty answer to its own query the route succeeds where the
      handler as written fails. */
  lemma ActionsRouteExtendsAsWritten(account: Option<string>, data: QueryData)
    ensures "actions" in data && |data["actions"]| == 0 ==>
              && ActionsRoute(account, data).result == Success([])
              && GetActions(ActionsWhere(account), data).result == Success([])
    ensures data.Keys == {"actions"} && |data["actions"]| > 0 ==>
              && ActionsRoute(account, data).result.Success?
              && GetActions(ActionsWhere(account), data).result.Failure?
  {
    if data.Keys == {"actions"} && |data["actions"]| > 0 {
      FixedActionsServeConformingAnswers(ActionsWhere(account), data);
    }
  }

  // ---------------------------------------------------------------- candles

  datatype CandlesBody<P> = CandlesBody(prices: P, period: string, updatedAt: int)

  /** A successful reply: its headers and its body. */
  datatype Reply<T> = Reply(headers: map<string, string>, body: T)

  /** `/api/candles/:symbol`. Rejections and errors thrown by `getPricesLimit`
      go through `next` to the `/api` error handler. */
  function CandlesRoute<P>(period: Option<string>, symbol: string, preferableChainId: JsNumber,
                           validPeriods: seq<string>, getPricesLimit: CandlesRequest -> Result<P, ErrorValue>,
                           updatedAt: int, production: bool)
    : (r: Result<Reply<CandlesBody<P>>, ErrorReply>)
    ensures var check := CheckCandles(period, symbol, preferableChainId, validPeriods);
            r.Success? <==> check.Success? && getPricesLimit(check.value).Success?
    ensures CheckCandles(period, symbol, preferableChainId, validPeriods).Failure? ==> r.Failure? && r.error.status == Integral(400)
    ensures r.Success? ==>
              var request := CandlesRequest(5000, 83, symbol, ToLower(period.value));
              && PeriodAccepted(period, validPeriods)
              && r.value.headers == map["Cache-Control" := "max-age=60"]
              && r.value.body == CandlesBody(getPricesLimit(request).value, ToLower(period.value), updatedAt)
  {
    match CheckCandles(period, symbol, preferableChainId, validPeriods)
    case Failure(f) =>
      CandlesRejectionReply(period, symbol, preferableChainId, validPeriods, production);
      Failure(HandleApiError(ToErrorValue(f), production))
    case Success(request) =>
      match getPricesLimit(request)
      case Failure(e) => Failure(HandleApiError(e, production))
      case Success(prices) => Success(Reply(map["Cache-Control" := "max-age=60"], CandlesBody(prices, request.period, updatedAt)))
  }

  /** An error thrown by `getPricesLimit` reaches the client through the error handler unchanged. */
  lemma CandlesPricesErrorPassesThrough<P>(period: Option<string>, symbol: string, preferableChainId: JsNumber,
                                           validPeriods: seq<string>, getPricesLimit: CandlesRequest -> Result<P, ErrorValue>,
                                           updatedAt: int, production: bool)
    requires CheckCandles(period, symbol, preferableChainId, validPeriods).Success?
    requires getPricesLimit(CheckCandles(period, symbol, preferableChainId, validPeriods).value).Failure?
    ensures CandlesRoute(period, symbol, preferableChainId, validPeriods, getPricesLimit, updatedAt, production)
            == Failure(HandleApiError(getPricesLimit(CheckCandles(period, symbol, preferableChainId, validPeriods).value).error, production))
  {
  }

  // ---------------------------------------------------------------- earn

  /** `/api/earn/:account`. `queryEarnData(chain, account)` yields the data or
      the message of the exception it throws, which becomes a 500. */
  function EarnRoute<D>(chain: Option<string>, account: string, queryEarnData: (string, string) -> Result<D, string>,
                        production: bool)
    : (r: Result<D, ErrorReply>)
    ensures r.Success? <==> CheckEarnChain(chain).Success? && queryEarnData(ChainName(chain), account).Success?
    ensures r.Success? ==> r.value == queryEarnData(ChainName(chain), account).value
    ensures CheckEarnChain(chain).Failure? ==>
              && r.Failure? && r.error.status == Integral(400)
              && (production ==> r.error.body == Message(ChainMessage()))
    ensures CheckEarnChain(chain).Success? && queryEarnData(ChainName(chain), account).Failure? ==>
              && r.Failure? && r.error.status == Integral(500)
              && (production ==> r.error.body == Message(""))
  {
    match CheckEarnChain(chain)
    case Failure(f) =>
      ClientErrorReply(f.message, production);
      Failure(HandleApiError(ToErrorValue(f), production))
    case Success(name) =>
      match queryEarnData(name, account)
      case Success(d) => Success(d)
      case Failure(message) => Failure(HandleApiError(ToErrorValue(Http(500, message)), production))
  }
}

=== FILE: subgraph.dfy ===
/** The subgraph side of the volume and action routes: the query documents the
    service sends, the where-clauses it splices into them, and the reshaping of
    the rows that come back into `{id, data}` envelopes. */
module Subgraph {
  import opened Wrappers
  import opened Text
  import opened Failures

  /** One row of a subgraph answer: field name -> value. */
  type Row = map<string, string>

  /** The `data` object of a GraphQL answer: top-level field -> rows. */
  type QueryData = map<string, seq<Row>>

  /** `row.name`; None is JavaScript's `undefined`. */
  function Field(row: Row, name: string): Option<string> {
    if name in row then Some(row[name]) else None
  }

  /** `data.name`. */
  function RowsOf(data: QueryData, name: string): Option<seq<Row>> {
    if name in data then Some(data[name]) else None
  }

  // ---------------------------------------------------------------- queries

  const MaxRows: string := "first: 600"
  const OrderBy: string := "orderBy: timestamp"
  const OrderDirection: string := "orderDirection: desc"

  /** The pieces of the query text before the spliced where-clause. */
  function HeadParts(entity: string): seq<string> {
    ["{\n    ", entity, "(\n      ", MaxRows, "\n      ", OrderBy, "\n      ", OrderDirection, "\n      where: { "]
  }

  /** The pieces of the query text after the spliced where-clause. */
  function TailParts(props: string): seq<string> {
    [" }\n    ) { ", props, " }\n  }"]
  }

  function QueryHead(entity: string): string {
    Join(HeadParts(entity), "")
  }

  function QueryTail(props: string): string {
    Join(TailParts(props), "")
  }

  /** The template of `getVolumes` and `getActions`: at most 600 rows of
      `entity`, newest first, filtered by `where` spliced in verbatim. */
  function BuildQuery(entity: string, where: string, props: string): string {
    QueryHead(entity) + where + QueryTail(props)
  }

  /** Recovers the where-clause from a query built by the template. */
  function WhereOf(q: string, entity: string, props: string): Option<string> {
    var h, t := QueryHead(entity), QueryTail(props);
    if |h| + |t| <= |q| && q[..|h|] == h && q[|q| - |t|..] == t then Some(q[|h|..|q| - |t|]) else None
  }

  /** The where-clause goes into the query verbatim and can be read back out of it. */
  lemma WhereRoundTrip(entity: string, where: string, props: string)
    ensures WhereOf(BuildQuery(entity, where, props), entity, props) == Some(where)
  {
    var h, t := QueryHead(entity), QueryTail(props);
    var q := BuildQuery(entity, where, props);
    assert q[..|h|] == h;
    assert q[|q| - |t|..] == t;
    assert q[|h|..|q| - |t|] == where;
  }

  /** Different where-clauses give different queries. */
  lemma BuildQueryInjective(entity: string, w1: string, w2: string, props: string)
    requires BuildQuery(entity, w1, props) == BuildQuery(entity, w2, props)
    ensures w1 == w2
  {
    WhereRoundTrip(entity, w1, props);
    WhereRoundTrip(entity, w2, props);
  }

  /** A piece of the head occurs in the query. */
  lemma HeadPartInQuery(entity: string, where: string, props: string, k: nat)
    requires k < |HeadParts(entity)|
    ensures Contains(BuildQuery(entity, where, props), HeadParts(entity)[k])
  {
    JoinContainsEach(HeadParts(entity), "", k);
    ContainsExtend(QueryHead(entity), HeadParts(entity)[k], "", where + QueryTail(props));
    assert "" + QueryHead(entity) + (where + QueryTail(props)) == BuildQuery(entity, where, props);
  }

  /** Every query asks for at most 600 rows of the named entity, ordered by
      timestamp, descending, selecting `props`. */
  lemma QueryRequestsWindow(entity: string, where: string, props: string)
    ensures Contains(BuildQuery(entity, where, props), MaxRows)
    ensures Contains(BuildQuery(entity, where, props), OrderBy)
    ensures Contains(BuildQuery(entity, where, props), OrderDirection)
    ensures Contains(BuildQuery(entity, where, props), entity)
    ensures Contains(BuildQuery(entity, where, props), props)
  {
    HeadPartInQuery(entity, where, props, 1);
    HeadPartInQuery(entity, where, props, 3);
    HeadPartInQuery(entity, where, props, 5);
    HeadPartInQuery(entity, where, props, 7);
    JoinContainsEach(TailParts(props), "", 1);
    ContainsExtend(QueryTail(props), props, QueryHead(entity) + where, "");
    assert QueryHead(entity) + where + QueryTail(props) + "" == BuildQuery(entity, where, props);
  }

  // ---------------------------------------------------------------- volumes

  const VolumeFieldNames: seq<string> := ["id", "token", "timestamp", "group", "volume", "action"]

  /** `PROPS` of `getVolumes`: the field names separated by single spaces,
      "id token timestamp group volume action". */
  const VolumeProps: string := Join(VolumeFieldNames, " ")

  /** Every field the envelopes copy is selected by the volumes query. */
  lemma VolumePropsSelectEveryField(k: nat)
    requires k < |VolumeFieldNames|
    ensures Contains(VolumeProps, VolumeFieldNames[k])
  {
    JoinContainsEach(VolumeFieldNames, " ", k);
  }

  function VolumesQuery(where: string): string {
    BuildQuery("volumes", where, VolumeProps)
  }

  datatype VolumeData = VolumeData(
    token: Option<string>,
    timestamp: Option<string>,
    group: Option<string>,
    volume: Option<string>,
    action: Option<string>)

  datatype VolumeEntry = VolumeEntry(id: Option<string>, data: VolumeData)

  function ReshapeVolume(row: Row): VolumeEntry {
    VolumeEntry(Field(row, "id"),
      VolumeData(Field(row, "token"), Field(row, "timestamp"), Field(row, "group"),
                 Field(row, "volume"), Field(row, "action")))
  }

  /** The reshaping loop of `getVolumes`: one envelope per row, same order. */
  function ReshapeVolumes(rows: seq<Row>): (r: seq<VolumeEntry>)
    ensures |r| == |rows|
    ensures forall i :: 0 <= i < |rows| ==> r[i] == ReshapeVolume(rows[i])
  {
    seq(|rows|, i requires 0 <= i < |rows| => ReshapeVolume(rows[i]))
  }

  /** `m` with `k` set to the value of `v`, or without `k` when `v` is absent. */
  function Put(m: Row, k: string, v: Option<string>): Row {
    if v.Some? then m[k := v.value] else m - {k}
  }

  /** The six copied fields of a row, rebuilt from its envelope. */
  function RowOf(e: VolumeEntry): Row {
    var d := e.data;
    Put(Put(Put(Put(Put(Put(map[], "id", e.id), "token", d.token), "timestamp", d.timestamp),
      "group", d.group), "volume", d.volume), "action", d.action)
  }

  /** The envelope keeps exactly the row's six selected fields: rebuilding the
      row from it gives back each selected field and nothing else. */
  lemma ReshapeVolumeRoundTrip(row: Row, name: string)
    ensures name in VolumeFieldNames ==> Field(RowOf(ReshapeVolume(row)), name) == Field(row, name)
    ensures name !in VolumeFieldNames ==> name !in RowOf(ReshapeVolume(row))
  {
  }

  /** Reshaping preserves order and concatenation: rows are neither dropped,
      duplicated nor reordered. */
  lemma ReshapeVolumesAppend(a: seq<Row>, b: seq<Row>)
    ensures ReshapeVolumes(a + b) == ReshapeVolumes(a) + ReshapeVolumes(b)
  {
  }

  /** What a route sends and what it makes of the answer. */
  datatype Fetch<T> = Fetch(query: string, result: Result<T, Failure>)

  /** `getVolumes(where)`: `data` is the subgraph's answer to the query. A
      missing `volumes` field fails at `data.volumes.length`. */
  function GetVolumes(where: string, data: QueryData): (r: Fetch<seq<VolumeEntry>>)
    ensures WhereOf(r.query, "volumes", VolumeProps) == Some(where)
    ensures r.result.Success? <==> "volumes" in data
    ensures "volumes" !in data ==> r.result == Failure(PropertyOfUndefined("length"))
    ensures r.result.Success? ==>
              && |r.result.value| == |data["volumes"]|
              && forall i :: 0 <= i < |data["volumes"]| ==>
                   var row, e := data["volumes"][i], r.result.value[i];
                   && e.id == Field(row, "id") && e.data.token == Field(row, "token")
                   && e.data.timestamp == Field(row, "timestamp") && e.data.group == Field(row, "group")
                   && e.data.volume == Field(row, "volume") && e.data.action == Field(row, "action")
  {
    WhereRoundTrip("volumes", where, VolumeProps);
    var result := if "volumes" !in data then Failure(PropertyOfUndefined("length"))
                  else Success(ReshapeVolumes(data["volumes"]));
    Fetch(VolumesQuery(where), result)
  }

  /** `timestamp: <bucket>`, the exact-match filter of the hourly and daily routes. */
  function TimestampWhere(bucket: nat): string {
    "timestamp: " + NatToString(bucket)
  }

  /** The bucket can be read back from its filter. */
  lemma TimestampWhereRoundTrip(bucket: nat)
    ensures |TimestampWhere(bucket)| > 11
    ensures AllDigits(TimestampWhere(bucket)[11..])
    ensures ParseDigits(TimestampWhere(bucket)[11..]) == bucket
  {
    assert TimestampWhere(bucket)[11..] == NatToString(bucket);
    ParseNatToString(bucket);
  }

  // ---------------------------------------------------------------- actions

  const ActionFieldNames: seq<string> := ["id", "action", "params", "timestamp", "account", "txhash", "blockNumber"]

  /** `PROPS` of `getActions`: the field names separated by single spaces,
      "id action params timestamp account txhash blockNumber". */
  const ActionProps: string := Join(ActionFieldNames, " ")

  /** Every field the envelopes copy is selected by the actions query. */
  lemma ActionPropsSelectEveryField(k: nat)
    requires k < |ActionFieldNames|
    ensures Contains(ActionProps, ActionFieldNames[k])
  {
    JoinContainsEach(ActionFieldNames, " ", k);
  }

  function ActionsQuery(where: string): string {
    BuildQuery("actions", where, ActionProps)
  }

  datatype ActionData = ActionData(
    params: Option<string>,
    timestamp: Option<string>,
    account: Option<string>,
    txhash: Option<string>,
    action: Option<string>,
    blockNumber: Option<string>)

  datatype ActionEntry = ActionEntry(id: Option<string>, data: ActionData)

  function ActionDataOf(row: Row): ActionData {
    ActionData(Field(row, "params"), Field(row, "timestamp"), Field(row, "account"),
               Field(row, "txhash"), Field(row, "action"), Field(row, "blockNumber"))
  }

  /** The loop of `getActions` as written, from index `i` on: the id comes from
      `data.actions[i]` but every data field from `data.volumes[i]`. Reading
      through a missing `volumes` fails at index `i`; reading past its end fails
      at `params`. */
  function ActionsFrom(actions: seq<Row>, volumes: Option<seq<Row>>, i: nat): (r: Result<seq<ActionEntry>, Failure>)
    requires i <= |actions|
    ensures r.Success? <==> i == |actions| || (volumes.Some? && |actions| <= |volumes.value|)
    ensures i < |actions| && volumes.None? ==> r == Failure(PropertyOfUndefined(NatToString(i)))
    ensures i < |actions| && volumes.Some? && |volumes.value| < |actions| ==> r == Failure(PropertyOfUndefined("params"))
    ensures r.Success? ==> |r.value| == |actions| - i
    ensures r.Success? ==> forall k :: i <= k < |actions| ==>
              r.value[k - i] == ActionEntry(Field(actions[k], "id"), ActionDataOf(volumes.value[k]))
    decreases |actions| - i
  {
    if i == |actions| then Success([])
    else if volumes.None? then Failure(PropertyOfUndefined(NatToString(i)))
    else if i >= |volumes.value| then Failure(PropertyOfUndefined("params"))
    else
      var rest :- ActionsFrom(actions, volumes, i + 1);
      Success([ActionEntry(Field(actions[i], "id"), ActionDataOf(volumes.value[i]))] + rest)
  }

  /** `getActions(where)` as written. */
  function GetActions(where: string, data: QueryData): (r: Fetch<seq<ActionEntry>>)
    ensures WhereOf(r.query, "actions", ActionProps) == Some(where)
    ensures "actions" !in data ==> r.result == Failure(PropertyOfUndefined("length"))
    ensures "actions" in data ==> r.result == ActionsFrom(data["actions"], RowsOf(data, "volumes"), 0)
  {
    WhereRoundTrip("actions", where, ActionProps);
    var result := if "actions" !in data then Failure(PropertyOfUndefined("length"))
                  else ActionsFrom(data["actions"], RowsOf(data, "volumes"), 0);
    Fetch(ActionsQuery(where), result)
  }

  /** An answer to the actions query carries only `actions`, so `getActions`
      succeeds exactly when there are no actions, and then returns []. */
  lemma ActionsAnswerOnlyEmptySucceeds(where: string, data: QueryData)
    requires data.Keys == {"actions"}
    ensures GetActions(where, data).result.Success? <==> |data["actions"]| == 0
    ensures GetActions(where, data).result.Success? ==> GetActions(where, data).result.value == []
  {
    assert RowsOf(data, "volumes") == None;
  }

  /** The cross-wiring, exhibited: one action in the answer and the route fails
      reading index 0 of the missing `volumes`. */
  lemma ActionsCrossWiringFails()
    ensures GetActions("", map["actions" := [map["id" := "a1"]]]).result == Failure(PropertyOfUndefined("0"))
  {
    assert NatToString(0) == "0";
  }

  /** The reshaping the code evidently intends: every field from the action row itself. */
  function GetActionsFixed(where: string, data: QueryData): (r: Fetch<seq<ActionEntry>>)
    ensures WhereOf(r.query, "actions", ActionProps) == Some(where)
    ensures r.result.Success? <==> "actions" in data
    ensures r.result.Success? ==>
              && |r.result.value| == |data["actions"]|
              && forall i :: 0 <= i < |data["actions"]| ==>
                   r.result.value[i] == ActionEntry(Field(data["actions"][i], "id"), ActionDataOf(data["actions"][i]))
  {
    WhereRoundTrip("actions", where, ActionProps);
    var result := if "actions" !in data then Failure(PropertyOfUndefined("length"))
                  else Success(ReshapeActions(data["actions"]));
    Fetch(ActionsQuery(where), result)
  }

  /** One envelope per action row, each filled from that row. */
  function ReshapeActions(rows: seq<Row>): (r: seq<ActionEntry>)
    ensures |r| == |rows|
    ensures forall i :: 0 <= i < |rows| ==> r[i] == ActionEntry(Field(rows[i], "id"), ActionDataOf(rows[i]))
  {
    seq(|rows|, i requires 0 <= i < |rows| => ActionEntry(Field(rows[i], "id"), ActionDataOf(rows[i])))
  }

  /** On an answer that conforms to the query the fixed reshaping returns one
      envelope per action, where the as-written one fails on any action at all. */
  lemma FixedActionsServeConformingAnswers(where: string, data: QueryData)
    requires data.Keys == {"actions"}
    requires |data["actions"]| > 0
    ensures GetActionsFixed(where, data).result.Success?
    ensures |GetActionsFixed(where, data).result.value| == |data["actions"]|
    ensures GetActions(where, data).result.Failure?
  {
    ActionsAnswerOnlyEmptySucceeds(where, data);
  }

  /** The where-clause of `/api/actions`: `account: <lower-cased account>` when
      the `account` parameter is present and non-empty, otherwise empty. */
  function ActionsWhere(account: Option<string>): (w: string)
    ensures w == "" <==> account.None? || account.value == ""
    ensures w != "" ==> w == "account: " + ToLower(account.value)
  {
    match account
    case None => ""
    case Some(a) =>
      var lower := ToLower(a);
      if lower == "" then "" else "account: " + lower
  }

  /** The filter does not depend on the case of the account, and the account's
      lower-cased text can be read back from it. */
  lemma ActionsWhereCaseInsensitive(a: string)
    requires a != ""
    ensures ActionsWhere(Some(ToLower(a))) == ActionsWhere(Some(a))
    ensures ActionsWhere(Some(a))[9..] == ToLower(a)
  {
    ToLowerIdempotent(a);
  }
}

=== FILE: text.dfy ===
/** String helpers for the JavaScript conversions the service relies on: the
    decimal rendering of integers (`BigNumber.toString()`, template literals),
    `String.prototype.toLowerCase`, `Array.prototype.toString` and substring search. */
module Text {

  predicate IsDigit(c: char) {
    '0' <= c <= '9'
  }

  predicate AllDigits(s: string) {
    forall i :: 0 <= i < |s| ==> IsDigit(s[i])
  }

  function DigitChar(d: nat): (c: char)
    requires d < 10
    ensures IsDigit(c)
  {
    ('0' as int + d) as char
  }

  function DigitValue(c: char): (d: nat)
    requires IsDigit(c)
    ensures d < 10 && DigitChar(d) == c
  {
    c as int - '0' as int
  }

  /** The decimal rendering of a non-negative integer: digits only, and no
      leading zero except for zero itself. */
  function NatToString(n: nat): (s: string)
    ensures |s| >= 1
    ensures AllDigits(s)
    ensures s[0] == '0' <==> n == 0
    ensures n == 0 ==> s == "0"
    decreases n
  {
    if n < 10 then [DigitChar(n)] else NatToString(n / 10) + [DigitChar(n % 10)]
  }

  /** Reads a string of decimal digits back as a number (the empty string reads as 0). */
  function ParseDigits(s: string): nat
    requires AllDigits(s)
  {
    if |s| == 0 then 0 else 10 * ParseDigits(s[..|s| - 1]) + DigitValue(s[|s| - 1])
  }

  lemma {:induction false} ParseNatToString(n: nat)
    ensures ParseDigits(NatToString(n)) == n
    decreases n
  {
    if n >= 10 {
      var s := NatToString(n);
      assert s[..|s| - 1] == NatToString(n / 10);
      ParseNatToString(n / 10);
    }
  }

  lemma NatToStringInjective(m: nat, n: nat)
    requires NatToString(m) == NatToString(n)
    ensures m == n
  {
    ParseNatToString(m);
    ParseNatToString(n);
  }

  /** The decimal rendering of an integer, with a leading '-' when it is negative. */
  function IntToString(i: int): (s: string)
    ensures |s| >= 1
    ensures i < 0 <==> s[0] == '-'
    ensures i >= 0 ==> AllDigits(s)
  {
    if i < 0 then "-" + NatToString(-i) else NatToString(i)
  }

  /** Reads an integer rendering back: an optional '-' followed by digits. */
  function ParseInt(s: string): int
    requires |s| >= 1
    requires s[0] == '-' ==> AllDigits(s[1..])
    requires s[0] != '-' ==> AllDigits(s)
  {
    if s[0] == '-' then -(ParseDigits(s[1..]) as int) else ParseDigits(s)
  }

  lemma ParseIntToString(i: int)
    ensures ParseInt(IntToString(i)) == i
  {
    if i < 0 {
      assert IntToString(i)[1..] == NatToString(-i);
      ParseNatToString(-i);
    } else {
      ParseNatToString(i);
    }
  }

  lemma IntToStringInjective(i: int, j: int)
    requires IntToString(i) == IntToString(j)
    ensures i == j
  {
    ParseIntToString(i);
    ParseIntToString(j);
  }

  predicate IsUpperAscii(c: char) {
    'A' <= c <= 'Z'
  }

  /** Lower-cases one character; only the ASCII letters are mapped. */
  function LowerChar(c: char): (d: char)
    ensures !IsUpperAscii(d)
    ensures !IsUpperAscii(c) ==> d == c
    ensures IsUpperAscii(c) ==> d as int == c as int + 32
  {
    if IsUpperAscii(c) then (c as int + 32) as char else c
  }

  /** `String.prototype.toLowerCase`, restricted to ASCII letters. */
  function ToLower(s: string): (r: string)
    ensures |r| == |s|
    ensures forall i :: 0 <= i < |r| ==> !IsUpperAscii(r[i])
    ensures forall i :: 0 <= i < |s| && !IsUpperAscii(s[i]) ==> r[i] == s[i]
    ensures forall i :: 0 <= i < |s| && IsUpperAscii(s[i]) ==> r[i] as int == s[i] as int + 32
  {
    seq(|s|, i requires 0 <= i < |s| => LowerChar(s[i]))
  }

  lemma ToLowerIdempotent(s: string)
    ensures ToLower(ToLower(s)) == ToLower(s)
  {
  }

  /** `Array.prototype.join(sep)`, which is also what a template literal or
      `Array.prototype.toString` produces with sep = ",". */
  function Join(items: seq<string>, sep: string): string
  {
    if |items| == 0 then ""
    else if |items| == 1 then items[0]
    else items[0] + sep + Join(items[1..], sep)
  }

  /** Joining a head onto a non-empty rest puts one separator between them. */
  lemma JoinCons(a: string, rest: seq<string>, sep: string)
    requires |rest| > 0
    ensures Join([a] + rest, sep) == a + sep + Join(rest, sep)
  {
    assert ([a] + rest)[1..] == rest;
  }

  /** `t` occurs in `s` as a contiguous substring. */
  predicate Contains(s: string, t: string) {
    exists i | 0 <= i <= |s| - |t| :: OccursAt(s, t, i)
  }

  /** `t` occurs in `s` starting at index `i`. */
  predicate OccursAt(s: string, t: string, i: int) {
    0 <= i <= |s| - |t| && s[i..i + |t|] == t
  }

  lemma ContainsMiddle(a: string, t: string, b: string)
    ensures Contains(a + t + b, t)
  {
    assert OccursAt(a + t + b, t, |a|);
  }

  lemma ContainsExtend(s: string, t: string, a: string, b: string)
    requires Contains(s, t)
    ensures Contains(a + s + b, t)
  {
    var i :| 0 <= i <= |s| - |t| && OccursAt(s, t, i);
    assert (a + s + b)[|a| + i..|a| + i + |t|] == s[i..i + |t|];
    assert OccursAt(a + s + b, t, |a| + i);
  }

  /** Every item of a joined list occurs in the joined string, so a message built
      with `Join` names every legal value. */
  lemma {:induction false} JoinContainsEach(items: seq<string>, sep: string, k: nat)
    requires k < |items|
    ensures Contains(Join(items, sep), items[k])
    decreases |items|
  {
    if |items| == 1 {
      ContainsMiddle("", items[0], "");
      assert "" + items[0] + "" == Join(items, sep);
    } else if k == 0 {
      ContainsMiddle("", items[0], sep + Join(items[1..], sep));
      assert items[0] + sep + Join(items[1..], sep) == "" + items[0] + (sep + Join(items[1..], sep));
    } else {
      JoinContainsEach(items[1..], sep, k - 1);
      ContainsExtend(Join(items[1..], sep), items[k], items[0] + sep, "");
      assert items[0] + sep + Join(items[1..], sep) + "" == Join(items, sep);
    }
  }
}

=== FILE: validation.dfy ===
/** Request validation of `/api/candles/:symbol` and `/api/earn/:account`:
    ordered checks where the first failure answers 400 and the later checks
    are skipped. */
module Validation {
  import opened Wrappers
  import opened Text
  import opened Failures
  import opened ApiErrors
  import Registry

  // ---------------------------------------------------------------- candles

  const ValidSymbols: set<string> := {"MTR", "MTRG", "BNB", "UNI", "LINK", "AVAX"}

  /** `new Set([METERTEST, AVALANCHE])`. `AVALANCHE` is not exported by the
      address module, so the second member is `undefined` (None). */
  const ValidSources: seq<Option<int>> := [Some(Registry.MeterTest), None]

  /** How a template literal renders a member of the source set. */
  function SourceText(s: Option<int>): string {
    match s
    case None => "undefined"
    case Some(v) => IntToString(v)
  }

  /** `validSources.has(n)`: a Set compares by SameValueZero, so a number is
      never `undefined` and NaN or a non-integer is never 83. */
  predicate IsValidSource(n: JsNumber) {
    n.Integral? && Some(n.value) in ValidSources
  }

  function PeriodMessage(validPeriods: seq<string>): string {
    "Invalid period. Valid periods are " + Join(validPeriods, ",")
  }

  function SymbolMessage(symbol: string): string {
    "Invalid symbol " + symbol
  }

  function SourceMessage(n: JsNumber): string {
    "Invalid preferableChainId " + NumberText(n) + ". Valid options are "
      + SourceText(ValidSources[0]) + ", " + SourceText(ValidSources[1])
  }

  /** The source message names 83 and `undefined`. */
  lemma SourceMessageText(n: JsNumber)
    ensures SourceMessage(n) == "Invalid preferableChainId " + NumberText(n) + ". Valid options are 83, undefined"
  {
    assert IntToString(83) == "83";
  }

  /** The lower-cased period, when the parameter is present. */
  function LoweredPeriod(period: Option<string>): Option<string> {
    match period
    case None => None
    case Some(p) => Some(ToLower(p))
  }

  /** `!period || !VALID_PERIODS.has(period)` fails: the period is absent, empty
      or not one of the valid periods. */
  predicate PeriodAccepted(period: Option<string>, validPeriods: seq<string>) {
    period.Some? && ToLower(period.value) != "" && ToLower(period.value) in validPeriods
  }

  /** The arguments the route hands to `getPricesLimit` once the checks pass. */
  datatype CandlesRequest = CandlesRequest(limit: nat, chainId: int, symbol: string, period: string)

  const PricesLimit: nat := 5000

  /** The three checks of the candles route, in order. `chainId` is
      `Number(req.query.preferableChainId)`; `validPeriods` is VALID_PERIODS
      in insertion order, as `Array.from` lists it. A Set holds each period
      once, so the list stands for a Set only when it has no repeats; with
      repeats the acceptance test is unchanged (it asks for membership) and
      only the message would list a period twice. */
  function CheckCandles(period: Option<string>, symbol: string, chainId: JsNumber, validPeriods: seq<string>)
    : (r: Result<CandlesRequest, Failure>)
    ensures r.Success? <==> PeriodAccepted(period, validPeriods) && symbol in ValidSymbols && IsValidSource(chainId)
    ensures !PeriodAccepted(period, validPeriods) ==> r == Failure(Http(400, PeriodMessage(validPeriods)))
    ensures PeriodAccepted(period, validPeriods) && symbol !in ValidSymbols
            ==> r == Failure(Http(400, SymbolMessage(symbol)))
    ensures PeriodAccepted(period, validPeriods) && symbol in ValidSymbols && !IsValidSource(chainId)
            ==> r == Failure(Http(400, SourceMessage(chainId)))
    ensures r.Success? ==> r.value == CandlesRequest(PricesLimit, Registry.MeterTest, symbol, ToLower(period.value))
  {
    var lowered := LoweredPeriod(period);
    if lowered.None? || lowered.value == "" || lowered.value !in validPeriods then
      Failure(Http(400, PeriodMessage(validPeriods)))
    else if symbol !in ValidSymbols then
      Failure(Http(400, SymbolMessage(symbol)))
    else if !IsValidSource(chainId) then
      Failure(Http(400, SourceMessage(chainId)))
    else
      Success(CandlesRequest(PricesLimit, chainId.value, symbol, lowered.value))
  }

  /** Only the Meter testnet is ever accepted as a source: `undefined` is in
      the set but no number equals it. */
  lemma OnlyMeterTestSource(n: JsNumber)
    ensures IsValidSource(n) <==> n == Integral(83)
  {
  }

  /** A missing `preferableChainId` is NaN and is rejected with "NaN" in the message. */
  lemma MissingSourceRejected(period: string, symbol: string, validPeriods: seq<string>)
    requires PeriodAccepted(Some(period), validPeriods) && symbol in ValidSymbols
    ensures NumberOfParam(None) == Some(NaN)
    ensures CheckCandles(Some(period), symbol, NaN, validPeriods)
            == Failure(Http(400, "Invalid preferableChainId " + "NaN" + ". Valid options are 83, undefined"))
  {
    SourceMessageText(NaN);
    assert !IsValidSource(NaN);
    assert NumberText(NaN) == "NaN";
  }

  /** An empty period is rejected even when the empty string is a valid period. */
  lemma EmptyPeriodRejected(symbol: string, chainId: JsNumber, validPeriods: seq<string>)
    ensures CheckCandles(Some(""), symbol, chainId, validPeriods) == Failure(Http(400, PeriodMessage(validPeriods)))
    ensures CheckCandles(None, symbol, chainId, validPeriods) == Failure(Http(400, PeriodMessage(validPeriods)))
  {
  }

  /** The period is case-insensitive and the symbol is not. */
  lemma PeriodCaseInsensitive(period: string, symbol: string, chainId: JsNumber, validPeriods: seq<string>)
    ensures CheckCandles(Some(ToLower(period)), symbol, chainId, validPeriods)
            == CheckCandles(Some(period), symbol, chainId, validPeriods)
    ensures CheckCandles(Some("1h"), "mtr", Integral(83), ["1h"]) == Failure(Http(400, SymbolMessage("mtr")))
  {
    ToLowerIdempotent(period);
    assert ToLower("1h") == "1h";
  }

  /** The period message lists every valid period. */
  lemma PeriodMessageListsEveryPeriod(validPeriods: seq<string>, k: nat)
    requires k < |validPeriods|
    ensures Contains(PeriodMessage(validPeriods), validPeriods[k])
  {
    JoinContainsEach(validPeriods, ",", k);
    ContainsExtend(Join(validPeriods, ","), validPeriods[k], "Invalid period. Valid periods are ", "");
    assert "Invalid period. Valid periods are " + Join(validPeriods, ",") + "" == PeriodMessage(validPeriods);
  }

  /** Every rejection reaches the client as a 400 whose body, even in
      production, is the rejection message. */
  lemma CandlesRejectionReply(period: Option<string>, symbol: string, chainId: JsNumber, validPeriods: seq<string>, production: bool)
    requires CheckCandles(period, symbol, chainId, validPeriods).Failure?
    ensures var f := CheckCandles(period, symbol, chainId, validPeriods).error;
            && f.Http? && f.status == 400
            && HandleApiError(ToErrorValue(f), production).status == Integral(400)
            && (production ==> HandleApiError(ToErrorValue(f), production).body == Message(f.message))
  {
    var f := CheckCandles(period, symbol, chainId, validPeriods).error;
    ClientErrorReply(f.message, production);
  }

  // ---------------------------------------------------------------- earn

  /** `new Set(["arbitrum", "avalanche"])`, in insertion order. */
  const ValidChainNames: seq<string> := ["arbitrum", "avalanche"]

  const DefaultChainName: string := "arbitrum"

  /** `req.query.chain || "arbitrum"`: an absent or empty parameter means arbitrum. */
  function ChainName(chain: Option<string>): (name: string)
    ensures name != ""
    ensures chain.Some? && chain.value != "" ==> name == chain.value
    ensures chain.None? || chain.value == "" ==> name == DefaultChainName
  {
    if chain.None? || chain.value == "" then DefaultChainName else chain.value
  }

  function ChainMessage(): string {
    "Valid chains are: " + Join(ValidChainNames, ",")
  }

  /** The chain check of the earn route: the chain name to query, or a 400. */
  function CheckEarnChain(chain: Option<string>): (r: Result<string, Failure>)
    ensures r.Success? <==> ChainName(chain) in ValidChainNames
    ensures r.Success? ==> r.value == ChainName(chain)
    ensures r.Failure? ==> r.error == Http(400, ChainMessage())
  {
    var name := ChainName(chain);
    if name !in ValidChainNames then Failure(Http(400, ChainMessage())) else Success(name)
  }

  /** The default applies to an absent and an empty parameter; names are
      case-sensitive; the message lists both chains. */
  lemma EarnChainExamples()
    ensures CheckEarnChain(None) == Success("arbitrum")
    ensures CheckEarnChain(Some("")) == Success("arbitrum")
    ensures CheckEarnChain(Some("avalanche")) == Success("avalanche")
    ensures CheckEarnChain(Some("Arbitrum")) == Failure(Http(400, "Valid chains are: arbitrum,avalanche"))
  {
    assert ValidChainNames == ["arbitrum"] + ["avalanche"];
    JoinCons("arbitrum", ["avalanche"], ",");
    assert Join(["avalanche"], ",") == "avalanche";
    assert ChainMessage() == "Valid chains are: arbitrum,avalanche";
    assert "Arbitrum" !in ValidChainNames;
  }

  /** Exactly two chain parameters besides the default are accepted. */
  lemma EarnAcceptsExactlyValidNames(chain: Option<string>)
    ensures CheckEarnChain(chain).Success? <==>
              chain.None? || chain.value in {"", "arbitrum", "avalanche"}
  {
  }
}

=== FILE: vault_decode.dfy ===
/** Decoding of the reader contract's `getVaultTokenInfo` result (one flat array of
    ten numbers per token, in catalog order) into per-token records keyed by
    address, and the `/api/tokens` payload built from them. */
module VaultDecode {
  import opened Wrappers
  import opened Text
  import opened Catalog

  // The flat result holds ten numbers per token (`vaultPropsLength`); the stride
  // is written as the literal 10 so that index arithmetic stays linear.

  /** The ten vault fields of one token, in the order the reader returns them. */
  datatype VaultFields = VaultFields(
    poolAmount: nat,
    reservedAmount: nat,
    usdgAmount: nat,
    redemptionAmount: nat,
    weight: nat,
    minPrice: nat,
    maxPrice: nat,
    guaranteedUsd: nat,
    maxPrimaryPrice: nat,
    minPrimaryPrice: nat)

  /** A catalog entry copied unchanged, with its vault fields added. */
  datatype InfoToken = InfoToken(token: TokenRecord, vault: VaultFields)

  /** The ten numbers a record stands for, in reader order. */
  function Encode(f: VaultFields): (s: seq<nat>)
    ensures |s| == 10
  {
    [f.poolAmount, f.reservedAmount, f.usdgAmount, f.redemptionAmount, f.weight,
     f.minPrice, f.maxPrice, f.guaranteedUsd, f.maxPrimaryPrice, f.minPrimaryPrice]
  }

  /** Number `o` of token `i`'s slot: `flat[10i + o]`. */
  function Slot(flat: seq<nat>, i: nat, o: nat): nat
    requires o < 10 && 10 * i + 10 <= |flat|
  {
    flat[10 * i + o]
  }

  /** The record of catalog index `i`: `flat[10i]` ... `flat[10i+9]`. */
  function FieldsAt(flat: seq<nat>, i: nat): (f: VaultFields)
    requires 10 * i + 10 <= |flat|
  {
    VaultFields(Slot(flat, i, 0), Slot(flat, i, 1), Slot(flat, i, 2), Slot(flat, i, 3), Slot(flat, i, 4),
                Slot(flat, i, 5), Slot(flat, i, 6), Slot(flat, i, 7), Slot(flat, i, 8), Slot(flat, i, 9))
  }

  /** The record of index `i` stands for exactly the ten numbers of its slot. */
  lemma FieldsAtEncode(flat: seq<nat>, i: nat)
    requires 10 * i + 10 <= |flat|
    ensures Encode(FieldsAt(flat, i)) == flat[10 * i..10 * i + 10]
  {
  }

  lemma DecodeEncode(f: VaultFields)
    ensures FieldsAt(Encode(f), 0) == f
  {
  }

  /** The records of the first `n` tokens, positionally. */
  function DecodeAll(flat: seq<nat>, n: nat): (r: seq<VaultFields>)
    requires 10 * n <= |flat|
    ensures |r| == n
    ensures forall i :: 0 <= i < n ==> r[i] == FieldsAt(flat, i)
  {
    seq(n, i requires 0 <= i < n => FieldsAt(flat, i))
  }

  /** The flat array a list of records stands for. */
  function Flatten(rs: seq<VaultFields>): (s: seq<nat>)
    ensures |s| == 10 * |rs|
  {
    if |rs| == 0 then [] else Flatten(rs[..|rs| - 1]) + Encode(rs[|rs| - 1])
  }

  /** Decoding loses nothing: the records re-flatten to the decoded prefix. */
  lemma {:induction false} FlattenDecodeAll(flat: seq<nat>, n: nat)
    requires 10 * n <= |flat|
    ensures Flatten(DecodeAll(flat, n)) == flat[..10 * n]
  {
    if n > 0 {
      var rs := DecodeAll(flat, n);
      var b := 10 * (n - 1);
      assert rs[..n - 1] == DecodeAll(flat, n - 1);
      FlattenDecodeAll(flat, n - 1);
      assert Flatten(rs) == Flatten(rs[..n - 1]) + Encode(rs[n - 1]);
      FieldsAtEncode(flat, n - 1);
      assert Encode(rs[n - 1]) == flat[b..b + 10];
      assert flat[..b + 10] == flat[..b] + flat[b..b + 10];
    }
  }

  /** Decoding the flattening of records gives the records back. */
  lemma {:induction false} DecodeAllFlatten(rs: seq<VaultFields>)
    ensures DecodeAll(Flatten(rs), |rs|) == rs
  {
    var flat := Flatten(rs);
    forall i | 0 <= i < |rs|
      ensures FieldsAt(flat, i) == rs[i]
    {
      FlattenAt(rs, i);
    }
  }

  lemma {:induction false} FlattenAt(rs: seq<VaultFields>, i: nat)
    requires i < |rs|
    ensures Flatten(rs)[10 * i..10 * i + 10] == Encode(rs[i])
  {
    var n := |rs|;
    var prefix := Flatten(rs[..n - 1]);
    assert Flatten(rs) == prefix + Encode(rs[n - 1]);
    if i < n - 1 {
      FlattenAt(rs[..n - 1], i);
      assert Flatten(rs)[10 * i..10 * i + 10]
          == prefix[10 * i..10 * i + 10];
    }
    var f := FieldsAt(Flatten(rs), i);
    EncodeInjective(f, rs[i]);
  }

  lemma EncodeInjective(f: VaultFields, g: VaultFields)
    ensures Encode(f) == Encode(g) ==> f == g
  {
    if Encode(f) == Encode(g) {
      assert forall k :: 0 <= k < 10 ==> Encode(f)[k] == Encode(g)[k];
    }
  }

  /** The keyed map after the loop has processed the first `k` catalog entries:
      each entry is written at its address, a later entry overwriting an earlier
      one with the same address. */
  function InfoTokensUpTo(catalog: seq<TokenRecord>, flat: seq<nat>, k: nat): (m: map<string, InfoToken>)
    requires k <= |catalog|
    requires 10 * |catalog| <= |flat|
  {
    if k == 0 then map[]
    else
      var t := catalog[k - 1];
      InfoTokensUpTo(catalog, flat, k - 1)[t.address := InfoToken(t, FieldsAt(flat, k - 1))]
  }

  /** After `k` iterations the map's keys are the first `k` addresses, and
      each entry sits under its own token's address. */
  lemma {:induction false} InfoTokensUpToKeys(catalog: seq<TokenRecord>, flat: seq<nat>, k: nat)
    requires k <= |catalog|
    requires 10 * |catalog| <= |flat|
    ensures InfoTokensUpTo(catalog, flat, k).Keys == AddressSet(catalog, k)
    ensures forall a :: a in InfoTokensUpTo(catalog, flat, k) ==> InfoTokensUpTo(catalog, flat, k)[a].token.address == a
  {
    if k > 0 {
      InfoTokensUpToKeys(catalog, flat, k - 1);
    }
  }

  /** The addresses of the first `k` catalog entries. */
  function AddressSet(catalog: seq<TokenRecord>, k: nat): (r: set<string>)
    requires k <= |catalog|
    ensures forall i :: 0 <= i < k ==> catalog[i].address in r
  {
    if k == 0 then {} else AddressSet(catalog, k - 1) + {catalog[k - 1].address}
  }

  lemma {:induction false} AddressSetMembers(catalog: seq<TokenRecord>, k: nat)
    requires k <= |catalog|
    ensures AddressSet(catalog, k) == set i | 0 <= i < k :: catalog[i].address
  {
    if k > 0 {
      AddressSetMembers(catalog, k - 1);
      assert (set i | 0 <= i < k :: catalog[i].address)
          == (set i | 0 <= i < k - 1 :: catalog[i].address) + {catalog[k - 1].address};
    }
  }

  /** With distinct addresses, the entry at token `i`'s address is token `i`
      with its own ten fields. */
  lemma {:induction false} InfoTokensUpToAt(catalog: seq<TokenRecord>, flat: seq<nat>, k: nat, i: nat)
    requires i < k <= |catalog|
    requires 10 * |catalog| <= |flat|
    requires DistinctAddresses(catalog)
    ensures catalog[i].address in InfoTokensUpTo(catalog, flat, k)
    ensures InfoTokensUpTo(catalog, flat, k)[catalog[i].address] == InfoToken(catalog[i], FieldsAt(flat, i))
  {
    var t := catalog[k - 1];
    var before := InfoTokensUpTo(catalog, flat, k - 1);
    assert InfoTokensUpTo(catalog, flat, k) == before[t.address := InfoToken(t, FieldsAt(flat, k - 1))];
    if i < k - 1 {
      assert catalog[i].address != t.address;
      InfoTokensUpToAt(catalog, flat, k - 1, i);
    }
  }

  /** The index of the last of the first `k` tokens with address `a`, if any. */
  function LastWith(catalog: seq<TokenRecord>, k: nat, a: string): (r: Option<nat>)
    requires k <= |catalog|
    ensures r.Some? ==> r.value < k && catalog[r.value].address == a
    ensures r.Some? ==> forall j :: r.value < j < k ==> catalog[j].address != a
    ensures r.None? ==> forall j :: 0 <= j < k ==> catalog[j].address != a
  {
    if k == 0 then None
    else if catalog[k - 1].address == a then Some(k - 1)
    else LastWith(catalog, k - 1, a)
  }

  /** Without the distinctness assumption, the map holds an entry at exactly
      the catalog addresses, and the entry at an address is the last token with
      that address, with that token's own ten fields: later writes win. */
  lemma {:induction false} InfoTokensUpToLast(catalog: seq<TokenRecord>, flat: seq<nat>, k: nat, a: string)
    requires k <= |catalog|
    requires 10 * |catalog| <= |flat|
    ensures a in InfoTokensUpTo(catalog, flat, k) <==> LastWith(catalog, k, a).Some?
    ensures LastWith(catalog, k, a).Some? ==>
              var j := LastWith(catalog, k, a).value;
              InfoTokensUpTo(catalog, flat, k)[a] == InfoToken(catalog[j], FieldsAt(flat, j))
  {
    if k > 0 {
      var t := catalog[k - 1];
      var before := InfoTokensUpTo(catalog, flat, k - 1);
      assert InfoTokensUpTo(catalog, flat, k) == before[t.address := InfoToken(t, FieldsAt(flat, k - 1))];
      if a != t.address {
        InfoTokensUpToLast(catalog, flat, k - 1, a);
      }
    }
  }

  /** `getInfoTokens()`: the map from token address to its catalog entry and
      vault fields. The reader's result is not length-checked by the service;
      the reader's ABI returns ten numbers per token, which the requires states. */
  function InfoTokens(catalog: seq<TokenRecord>, flat: seq<nat>): (m: map<string, InfoToken>)
    requires 10 * |catalog| <= |flat|
    ensures m.Keys == set i | 0 <= i < |catalog| :: catalog[i].address
    ensures forall i :: 0 <= i < |catalog| ==> catalog[i].address in m
    ensures forall a :: a in m ==> m[a].token.address == a
  {
    AddressSetMembers(catalog, |catalog|);
    InfoTokensUpToKeys(catalog, flat, |catalog|);
    InfoTokensUpTo(catalog, flat, |catalog|)
  }

  /** With distinct catalog addresses, decoding keyed by address gives every
      token its own unchanged catalog entry and its own ten slots. */
  lemma InfoTokensAt(catalog: seq<TokenRecord>, flat: seq<nat>, i: nat)
    requires 10 * |catalog| <= |flat|
    requires DistinctAddresses(catalog)
    requires i < |catalog|
    ensures InfoTokens(catalog, flat)[catalog[i].address] == InfoToken(catalog[i], FieldsAt(flat, i))
  {
    InfoTokensUpToAt(catalog, flat, |catalog|, i);
  }

  /** The nine numbers `/api/tokens` emits per token, as decimal strings
      (`usdgAmount` is not emitted). */
  datatype TokenData = TokenData(
    poolAmount: string,
    reservedAmount: string,
    redemptionAmount: string,
    weight: string,
    minPrice: string,
    maxPrice: string,
    guaranteedUsd: string,
    maxPrimaryPrice: string,
    minPrimaryPrice: string)

  datatype TokenEntry = TokenEntry(id: string, data: TokenData)

  function Present(v: VaultFields): TokenData {
    TokenData(
      NatToString(v.poolAmount), NatToString(v.reservedAmount), NatToString(v.redemptionAmount),
      NatToString(v.weight), NatToString(v.minPrice), NatToString(v.maxPrice),
      NatToString(v.guaranteedUsd), NatToString(v.maxPrimaryPrice), NatToString(v.minPrimaryPrice))
  }

  /** Reading the emitted strings back gives the nine vault fields. */
  lemma PresentRoundTrip(v: VaultFields)
    ensures ParseDigits(Present(v).poolAmount) == v.poolAmount
    ensures ParseDigits(Present(v).reservedAmount) == v.reservedAmount
    ensures ParseDigits(Present(v).redemptionAmount) == v.redemptionAmount
    ensures ParseDigits(Present(v).weight) == v.weight
    ensures ParseDigits(Present(v).minPrice) == v.minPrice
    ensures ParseDigits(Present(v).maxPrice) == v.maxPrice
    ensures ParseDigits(Present(v).guaranteedUsd) == v.guaranteedUsd
    ensures ParseDigits(Present(v).maxPrimaryPrice) == v.maxPrimaryPrice
    ensures ParseDigits(Present(v).minPrimaryPrice) == v.minPrimaryPrice
  {
    ParseNatToString(v.poolAmount);
    ParseNatToString(v.reservedAmount);
    ParseNatToString(v.redemptionAmount);
    ParseNatToString(v.weight);
    ParseNatToString(v.minPrice);
    ParseNatToString(v.maxPrice);
    ParseNatToString(v.guaranteedUsd);
    ParseNatToString(v.maxPrimaryPrice);
    ParseNatToString(v.minPrimaryPrice);
  }

  /** The `/api/tokens` payload: for each catalog token, in catalog order, the
      keyed record looked up by the token's address and re-emitted. */
  function TokensPayload(catalog: seq<TokenRecord>, flat: seq<nat>): (r: seq<TokenEntry>)
    requires 10 * |catalog| <= |flat|
    ensures |r| == |catalog|
    ensures forall i :: 0 <= i < |catalog| ==> r[i].id == catalog[i].address
  {
    var info := InfoTokens(catalog, flat);
    seq(|catalog|, i requires 0 <= i < |catalog| =>
      var t := info[catalog[i].address];
      TokenEntry(t.token.address, Present(t.vault)))
  }

  /** Entry `i` of `/api/tokens` carries `flat[10i]`, `flat[10i+1]`, `flat[10i+3]`
      ... `flat[10i+9]` as decimal strings. */
  lemma TokensPayloadFields(catalog: seq<TokenRecord>, flat: seq<nat>, i: nat)
    requires 10 * |catalog| <= |flat|
    requires DistinctAddresses(catalog)
    requires i < |catalog|
    ensures var d := TokensPayload(catalog, flat)[i].data;
            && ParseDigits(d.poolAmount) == flat[10 * i]
            && ParseDigits(d.reservedAmount) == flat[10 * i + 1]
            && ParseDigits(d.redemptionAmount) == flat[10 * i + 3]
            && ParseDigits(d.weight) == flat[10 * i + 4]
            && ParseDigits(d.minPrice) == flat[10 * i + 5]
            && ParseDigits(d.maxPrice) == flat[10 * i + 6]
            && ParseDigits(d.guaranteedUsd) == flat[10 * i + 7]
            && ParseDigits(d.maxPrimaryPrice) == flat[10 * i + 8]
            && ParseDigits(d.minPrimaryPrice) == flat[10 * i + 9]
  {
    InfoTokensAt(catalog, flat, i);
    PresentRoundTrip(FieldsAt(flat, i));
  }

  /** Two reads agree on every slot of the first `n` tokens except `usdgAmount`
      (offset 2). */
  predicate SameOutsideUsdg(flat: seq<nat>, flat': seq<nat>, n: nat)
    requires 10 * n <= |flat| && 10 * n <= |flat'|
  {
    forall j, o :: 0 <= j < n && 0 <= o < 10 && o != 2 ==> Slot(flat, j, o) == Slot(flat', j, o)
  }

  /** The record with `usdgAmount` cleared: all of it that `/api/tokens` shows. */
  function WithoutUsdg(v: VaultFields): VaultFields {
    v.(usdgAmount := 0)
  }

  /** Records that agree outside `usdgAmount` are emitted alike. */
  lemma PresentIgnoresUsdg(v: VaultFields, w: VaultFields)
    requires WithoutUsdg(v) == WithoutUsdg(w)
    ensures Present(v) == Present(w)
  {
    assert v.poolAmount == WithoutUsdg(v).poolAmount == WithoutUsdg(w).poolAmount == w.poolAmount;
  }

  /** `/api/tokens` does not depend on the `usdgAmount` slots: two reads that
      differ only there give the same payload. */
  lemma TokensPayloadIgnoresUsdg(catalog: seq<TokenRecord>, flat: seq<nat>, flat': seq<nat>)
    requires 10 * |catalog| <= |flat| && 10 * |catalog| <= |flat'|
    requires SameOutsideUsdg(flat, flat', |catalog|)
    ensures TokensPayload(catalog, flat) == TokensPayload(catalog, flat')
  {
    var info := InfoTokens(catalog, flat);
    var info' := InfoTokens(catalog, flat');
    forall i | 0 <= i < |catalog|
      ensures Present(info[catalog[i].address].vault) == Present(info'[catalog[i].address].vault)
    {
      var a := catalog[i].address;
      InfoTokensUpToLast(catalog, flat, |catalog|, a);
      InfoTokensUpToLast(catalog, flat', |catalog|, a);
      var j := LastWith(catalog, |catalog|, a).value;
      SameSlotOutsideUsdg(flat, flat', |catalog|, j);
      PresentIgnoresUsdg(info[a].vault, info'[a].vault);
    }
  }

  /** The slot of token `j` in two such reads differs at most in `usdgAmount`. */
  lemma SameSlotOutsideUsdg(flat: seq<nat>, flat': seq<nat>, n: nat, j: nat)
    requires j < n
    requires 10 * n <= |flat| && 10 * n <= |flat'|
    requires SameOutsideUsdg(flat, flat', n)
    ensures WithoutUsdg(FieldsAt(flat, j)) == WithoutUsdg(FieldsAt(flat', j))
  {
  }
}

=== FILE: wrappers.dfy ===
/** Failure-compatible wrappers used throughout the model: `Option` stands for a
    JavaScript value that may be `undefined`, `Result` for an operation that either
    returns a value or throws. */
module Wrappers {

  datatype Option<+T> = None | Some(value: T)

  datatype Result<+R, +E> = Success(value: R) | Failure(error: E) {

    predicate IsFailure() {
      Failure?
    }

    function PropagateFailure<U>(): Result<U, E>
      requires Failure?
    {
      Failure(error)
    }

    function Extract(): R
      requires Success?
    {
      value
    }
  }
}
